=== FILE: README.md ===
# Cyclone LED game: a Dafny model

This project models the game logic of an STM32 "cyclone" arcade game. A
green cursor runs around a ring of 59 WS2812 LEDs. The player presses a
button to stop it on the red target LED 29. Hitting the target raises the
speed level (1 to 8). Missing it costs one of three lives, and losing the
last life restarts the game at level 1. Three GPIO LEDs show the lives.

The model has five modules:

- `Colors` (colors.dfy): the 8-bit RGB colour, brightness scaling
  (`v * 100 / 255`), the chase fade (`v * 245 / 256`) and the rainbow
  colour wheel.
- `Ws2812` (ws2812.dfy): the bit encoder that turns one LED's colour into 24
  PWM duty-cycle slots (GRB order, most significant bit first, slot = bit + 1).
  It also has the two uniform fills and an exact decoder for the round trip.
- `LedStrip` (led_strip.dfy): the 59-entry colour buffer, the bounds-checked
  write, the solid fill, the fade of all LEDs, and the renderer that pushes
  the scaled buffer into the slot buffer.
- `Animations` (animations.dfy): the flash, won and cylon animations, reduced
  to their effect on the colour buffer, on what was last pushed to the strip,
  and on the persistent wheel position.
- `Game` (game.dfy): the game state, boot and `Game_Setup`, the button
  callback, and `Game_Loop` as one pure step. The loop step takes the button
  level and the tick count as inputs. Its parts are the judgement of a stop,
  the debounced restart and the free-running cursor.

A `Display` holds the colour buffer together with the colours last pushed
to the strip. Every push rewrites all 1416 data slots and never touches the
50-slot reset gap, so the slot buffer is always the render of the last
pushed colours over the zeroed buffer. `Frame` computes it, and `ShowFrame`
proves that this matches rewriting the previous slot buffer in place.

Where the code differs from what a reader would expect, the model follows the code:

- The game boots running (`Playing` and `CycleEnded` both true), not idle.
- A win at level 8 sets the level to 1, and the raise that follows in the
  same branch takes it to 2, so the wrap in `increase_game_difficulty` is
  never reached from a win.
- A restart does not wait for the next loop call. The same `Game_Loop` call
  continues into the running branch, so the cursor is drawn at LED 0 and
  leaves the call at LED 1.
- The running branch draws the cursor at LED `a` and moves it to `a + 1`
  before the step's delay. A press while the strip shows the cursor on the
  target is therefore judged at LED 30 and loses (`PressOnShownTargetLoses`).
  A win needs the press while LED 28 is shown (`PressBeforeTargetWins`).

## Model

| member | source | states |
|---|---|---|
| Colors.ScaleChannel | Src/game.c:189-191 | the brightness-scaled channel is the floor of `v * b / 255`, never above `v`, unchanged at full brightness, 0 for a dark channel or zero brightness |
| Colors.ScaleMonotone | Src/game.c:189-191 | brightness scaling is monotone in the channel value |
| Colors.ScaleColor | Src/game.c:189-191 | a scaled colour is channel-wise no brighter than the original, and black stays black |
| Colors.FadeChannel | Src/game.c:256-260 | a faded channel is the floor of `v * 245 / 256`; 0 stays 0 and any lit channel strictly drops |
| Colors.FadeColor | Src/game.c:255-261 | a fade keeps a colour unchanged exactly when it is black, and never brightens a channel |
| Colors.FadeTimes | Src/game.c:255-261 | repeated fading never brightens, and black stays black |
| Colors.FadeTimesDarkens | Src/game.c:255-261 | at least one fade of a non-black colour changes it |
| Colors.FadeTimesAdd | Src/game.c:255-261 | `a` fades followed by `b` fades are `a + b` fades |
| Colors.ColorWheel | Src/game.c:265-282 | every wheel colour has channels summing to 255 with at least one channel 0 |
| Colors.WheelAnchors | Src/game.c:265-282 | positions 0, 85, 170 and 255 give red, green, blue and red |
| Colors.WheelInjective | Src/game.c:265-282 | positions 1..255 give pairwise different colours |
| Ws2812.Shr | Src/ws2812.c:49 | `v >> n` on a C `int` is the floor of `v / 2^n` |
| Ws2812.Bit | Src/ws2812.c:49 | `(v >> n) & 1` is 0 or 1 and is bit `n` of `v`: `(v / 2^n) mod 2` |
| Ws2812.BitSlot | Src/ws2812.c:49 | a written slot is 1 or 2, and it is 1 exactly for a 0 bit |
| Ws2812.LedSlot | Src/ws2812.c:47-57 | slot `k` of an LED is green bits 7..0, then red, then blue, always 1 or 2 |
| Ws2812.EncodeLed | Src/ws2812.c:47-57 | writing one LED changes exactly its 24 slots, each to its bit encoding |
| Ws2812.SetLed | Src/ws2812.c:47-57 | the three loops write slot `24p + 7 - i` with green bit `i` plus one (red at `+15 - i`, blue at `+23 - i`), change no other slot and each write 1 or 2 |
| Ws2812.ResetAll | Src/ws2812.c:23-27 | every data slot becomes 1 and the 50 reset-gap slots are unchanged |
| Ws2812.SetAll | Src/ws2812.c:33-37 | every data slot becomes 2 and the 50 reset-gap slots are unchanged |
| Ws2812.BitRunRoundTrip | Src/ws2812.c:48-50 | `n` bits written most significant first decode to `v mod 2^n` |
| Ws2812.DecodeHeld | Src/ws2812.c:47-57 | an LED whose 24 slots hold the encoding decodes to its channels modulo 256 |
| Ws2812.EncodeDecode | Src/ws2812.c:47-57 | round trip: the LED just written decodes to (red, green, blue) for channels in 0..255, and to their low 8 bits otherwise |
| Ws2812.DecodeUniform | Src/ws2812.c:23-37 | a run of equal slots decodes to all-zero or all-one bits |
| Ws2812.UniformFrameDecodes | Src/ws2812.c:23-37 | after a reset every LED decodes to black; after a set-all every LED decodes to white |
| LedStrip.Dark | Src/game.c:47 | the static colour buffer starts with all 59 LEDs black |
| LedStrip.SetLed | Src/game.c:171-177 | the write changes only entry `index`, only when `0 <= index < 59`; an out-of-range index leaves the buffer unchanged |
| LedStrip.FillFrom | Src/game.c:181-183 | after the loop has run from `i`, LEDs from `i` on hold the colour and the earlier LEDs are untouched |
| LedStrip.Fill | Src/game.c:180-184 | every LED holds the fill colour, whatever it held before |
| LedStrip.FadeFrom | Src/game.c:257-261 | after the loop has run from `i`, LEDs from `i` on are faded once and the earlier LEDs are untouched |
| LedStrip.FadeAll | Src/game.c:255-261 | every LED is faded exactly once |
| LedStrip.RenderedSlot | Src/game.c:188-192 | each data slot of a render is a 0-bit or a 1-bit duty value |
| LedStrip.RenderFrom | Src/game.c:188-193 | after the loop has run from LED `i`, the slots of the LEDs from `i` on hold their scaled encoding, the earlier slots and the reset gap are untouched |
| LedStrip.Render | Src/game.c:187-195 | every data slot is rewritten from the scaled buffer and the reset gap is left as it was |
| LedStrip.RenderShows | Src/game.c:187-195 | after a render, LED `p` decodes to its colour scaled by the brightness |
| LedStrip.RenderHolds | Src/game.c:188-192 | the 24 slots of LED `p` after a render are the encoding of its scaled colour |
| LedStrip.RenderDeterminedByStrip | Src/game.c:187-195 | a render depends only on the colour buffer and the previous reset gap |
| LedStrip.RenderLast | Src/game.c:187-195 | rendering twice is rendering the second buffer once: only the last push counts |
| LedStrip.DarkRendersAsReset | Src/game.c:187-195 | a dark buffer renders every data slot as a 0 bit, as `WS2812_ResetAllLED` would |
| Animations.Blank | Src/ws2812.c:4 | the slot buffer starts as 24 * 59 + 50 zeros |
| Animations.Frame | Src/ws2812.c:4 | a display's slot buffer has 1466 slots; data slots hold 1 or 2 and the reset gap stays 0 |
| Animations.Show | Src/game.c:187-195 | a push makes `s` both the colour buffer and the colours the strip shows; what it does to the slot buffer is stated by `ShowFrame` |
| Animations.ShowFrame | Src/game.c:187-195 | a push turns the previous slot buffer into its render of the new colours |
| Animations.Blink | Src/game.c:285-292 | a blink of any colour leaves the buffer and the strip dark |
| Animations.Flash | Src/game.c:285-292 | the red flash leaves the buffer and the strip dark |
| Animations.Flashes | Src/game.c:111-118 | zero flashes change nothing; one or more leave the buffer and the strip dark |
| Animations.WonAnimation | Src/game.c:321-331 | the two green blinks leave the buffer and the strip dark |
| Animations.OffIsReset | Src/game.c:289-290 | a dark display's slot buffer has every data slot at the 0-bit value |
| Animations.AdvanceCongruent | Src/game.c:301 | the wheel position after `n` post-increments of a `uint8_t` from `w` is exactly the byte congruent to `w + n` modulo 256 |
| Animations.AdvanceAdd | Src/game.c:296 | advancing the `uint8_t` wheel position by `a` then `b` is advancing by `a + b` modulo 256 |
| Animations.StripStep | Src/game.c:301-305 | one chase step on the colour buffer keeps its length; its content is stated by `StripStepIsSetThenFade` |
| Animations.StripStepIsSetThenFade | Src/game.c:301-305 | one chase step is the write of the wheel colour at LED `i` followed by the fade of all LEDs |
| Animations.ChaseStep | Src/game.c:301-306 | one chase step on the display keeps it well formed; what it pushes and leaves is stated by `ChaseStepEffect` |
| Animations.ChaseStepEffect | Src/game.c:301-305 | a chase step pushes the old buffer with LED `i` in its wheel colour, and leaves that push faded once in the buffer |
| Animations.ForwardStrip | Src/game.c:299-307 | the forward loop on the colour buffer keeps its length; its content is stated by `ForwardColorAt` |
| Animations.ForwardColorAt | Src/game.c:299-307 | after the forward loop from `i`, a visited LED `j` holds wheel colour `w + j` faded `59 - j` times, and an earlier LED its old colour faded once per step |
| Animations.Forward | Src/game.c:299-307 | the forward loop on the display keeps it well formed; its buffer is stated by `ForwardBuffer` |
| Animations.ForwardBuffer | Src/game.c:299-307 | the forward loop leaves the buffer the colour-buffer computation predicts |
| Animations.BackwardStrip | Src/game.c:309-317 | the backward loop on the colour buffer keeps its length; its content is stated by `BackwardColorAt` |
| Animations.BackwardColorAt | Src/game.c:309-317 | after the backward loop from `i`, a reached LED holds its trail colour and a higher LED its old colour faded once per step |
| Animations.Backward | Src/game.c:309-317 | the backward loop on the display keeps it well formed; its buffer is stated by `BackwardBuffer` and `BackwardFaded` |
| Animations.BackwardBuffer | Src/game.c:309-317 | the backward loop leaves the buffer the colour-buffer computation predicts |
| Animations.BackwardFaded | Src/game.c:309-317 | after a backward loop the buffer is the last pushed frame faded once |
| Animations.CylonStrip | Src/game.c:295-318 | one chase on the colour buffer keeps its length; its content is stated by `CylonColors` |
| Animations.CylonColors | Src/game.c:295-318 | one chase leaves LED `j` with wheel colour `w + 117 - j` faded `j + 1` times, whatever the buffer held |
| Animations.Cylon | Src/game.c:295-318 | one chase moves the persistent wheel position on by 118 modulo 256 |
| Animations.CylonTrail | Src/game.c:295-318 | the displayed chase leaves every LED in its trail colour, one fade behind what the strip shows |
| Animations.Cylons | Src/game.c:93-102 | `n` chases move the wheel position on by `118 * n` modulo 256 |
| Animations.CylonsTrail | Src/game.c:93-102 | after `n > 0` chases the buffer holds the trail of the last chase |
| Game.Indicators | Src/game.c:243-250 | one life LED is lit per remaining life, up to three, and they go out from LED 1 to LED 3 |
| Game.IndicatorsInjective | Src/game.c:243-250 | the life LEDs tell the lives 1, 2 and 3 apart |
| Game.GetTime | Src/game.c:198-229 | the step delay is between 20 and 200 ms, 100 for any non-level, 200 exactly at level 1 and 20 exactly at level 8 |
| Game.GetTimeDecreasing | Src/game.c:198-229 | the ladder 200, 150, 100, 80, 60, 50, 30, 20 is strictly decreasing in the level |
| Game.IncreaseDifficulty | Src/game.c:232-240 | a won round raises levels 1..7 by one and wraps level 8 to 1; an unwon round keeps the level |
| Game.WinLevel | Src/game.c:89-105 | a won round leaves a level other than 1: one up below level 8, and level 2 from level 8 |
| Game.AfterWinningRounds | Src/game.c:89-105 | any number of won rounds in a row keeps the level in 1..8 |
| Game.WinsClimb | Src/game.c:89-105 | won rounds from level `d` climb one level each up to level 8 |
| Game.WinsSplit | Src/game.c:89-105 | `a` won rounds followed by `b` won rounds are `a + b` won rounds |
| Game.WinsNeverEasy | Src/game.c:91-104 | after at least one won round in a row the level is never 1 |
| Game.WinsCycle | Src/game.c:91-104 | above level 1, seven won rounds in a row come back to the same level, cycling through 2..8 |
| Game.Distance | Src/game.c:88-89 | the distance to the target is 0 exactly when the cursor stopped on LED 29 |
| Game.DistanceSymmetric | Src/game.c:88 | stopping `k` LEDs before or after the target is equally far |
| Game.TargetFrame | Src/game.c:80-85 | the judged frame lights the cursor green, the target red (the cursor wins a tie) and every other LED black |
| Game.CursorFrame | Src/game.c:80-86 | the pushed frame leaves buffer and strip with the cursor green, the target red and every other LED black |
| Game.Boot | Src/game.c:34-48 | the game boots running, to be judged once stopped, at level 1 with three lives, cursor at LED 0 and a dark strip, not waiting for a release, the release tick 0, the chase wheel at position 0 (line 296) and the life LEDs dark |
| Game.Setup | Src/game.c:62-67 | setup pushes a dark strip, lights the life LEDs for the lives and puts the cursor at LED 0 |
| Game.SetupEstablishesInv | Src/game.c:34-67 | after boot and setup, the level is in 1..8, lives in 1..3, cursor in 0..58 and the life LEDs match |
| Game.ButtonPress | Src/game.c:70-75 | a press while running stops the cursor and asks for a judgement; at any other time it changes nothing |
| Game.ButtonPressKeepsInv | Src/game.c:70-75 | a press keeps the game invariant |
| Game.WinChase | Src/game.c:91-103 | the winning chase moves the wheel position on by two chases |
| Game.Won | Src/game.c:89-105 | a win raises the level by one below level 8, takes level 8 to 2 with the lives refilled, and changes no lives otherwise |
| Game.Lost | Src/game.c:106-123 | a loss takes one life and keeps the level, or on the last life refills the lives and resets the level to 1; the life LEDs match |
| Game.Judge | Src/game.c:79-126 | a judgement marks the stop as judged, drops any pending wait, and keeps the cursor and the running flag |
| Game.JudgeWins | Src/game.c:89-105 | a stop on the target raises the level (8 goes to 2 with three lives) and keeps the lives below level 8 |
| Game.JudgeLoses | Src/game.c:106-123 | a stop off the target takes exactly one life; the last life restarts at level 1 with three lives |
| Game.JudgeMonotone | Src/game.c:89-123 | a win never costs a life and a loss never raises the level |
| Game.JudgeKeepsInv | Src/game.c:79-126 | after any judgement the level is in 1..8, lives in 1..3 and the life LEDs match |
| Game.JudgeLossGoesDark | Src/game.c:106-123 | a lost round ends with the strip and the buffer dark |
| Game.JudgeWinLeavesTrail | Src/game.c:89-105 | a won round ends on the second chase's trail, with the wheel four sweeps further on |
| Game.WonChase | Src/game.c:91-103 | a won round's display and wheel are those of its winning chase |
| Game.WinChaseTrail | Src/game.c:91-103 | the winning chase ends on its second sweep's trail, with or without the won animation first |
| Game.CylonsSecondTrail | Src/game.c:93-95 | two chases leave the trail of a chase starting one chase further on the wheel |
| Game.Elapsed | Src/game.c:135-136 | the elapsed tick count is the unsigned 32-bit difference: `now - seen`, plus 2^32 when the counter wrapped, always in 0..2^32 - 1 |
| Game.Debounce | Src/game.c:128-151 | the round restarts exactly on a released reading, while waiting, after strictly more than 100 ticks; a pressed reading only cancels the wait; a first released reading only starts it at `now`; a released reading while waiting that does not restart changes nothing; no reading touches the persistent wheel position, and a restart keeps the wait start |
| Game.DebounceKeepsInv | Src/game.c:128-151 | debouncing keeps the game invariant |
| Game.FreeRun | Src/game.c:154-167 | the running cursor moves one LED on, wrapping from 58 to 0, and nothing but the cursor and the display changes |
| Game.FreeRunKeepsInv | Src/game.c:154-167 | a running step keeps the cursor in 0..58 and the game invariant |
| Game.JudgePending | Src/game.c:78-79 | a stop is judged only once: a state already judged passes through unchanged |
| Game.Loop | Src/game.c:77-168 | after a loop step the game runs exactly when it already ran or a judged stop saw a stable release |
| Game.LoopKeepsInv | Src/game.c:77-168 | every loop step keeps the level in 1..8, lives in 1..3, the cursor in 0..58 and the life LEDs matching |
| Game.LoopRuns | Src/game.c:154-167 | while running, a step moves the cursor to `(a + 1) mod 59` and keeps level, lives and the wheel position |
| Game.LoopJudges | Src/game.c:79-151 | the step after a stop judges it and never restarts at once; a released reading starts the wait at `now` |
| Game.LoopRestarts | Src/game.c:128-165 | after a judgement, a step restarts exactly on a stable release, and the restarted cursor leaves the step at LED 1; the wheel position and the level and lives carry over |
| Game.LoopKeepsWaiting | Src/game.c:130-146 | while the wait runs and at most 100 ticks have passed, a released reading leaves the state as it was, start of the wait included |
| Game.LoopHeldRelease | Src/game.c:130-146 | a released reading at `t0` starts the wait, and a later released reading at `t1` restarts the round exactly when more than 100 ticks have passed since `t0` |
| Game.BootRunsFreely | Src/game.c:34-35 | the first step after boot and setup runs the cursor to LED 1 without judging anything |
| Game.ShowsScaled | Src/game.c:187-195 | a pushed full red or green LED reads back at 100 and black at 0 |
| Game.FreeRunShows | Src/game.c:155-160 | while running, the strip shows the cursor green and the target red at 100, with every other LED dark |
| Game.CursorFrameShows | Src/game.c:80-86 | the frozen stop frame shows the cursor green and the target red at brightness 100, with every other LED dark, and the cursor over the target when they meet |
| Game.RestartShows | Src/game.c:140-142 | on a restart the strip shows only the target, red at 100 |
| Game.PressOnShownTargetLoses | Src/game.c:154-166 | while the strip shows the cursor green on the target, the state already holds LED 30, so a press there is judged a loss |
| Game.PressBeforeTargetWins | Src/game.c:154-166 | a press while the strip shows the cursor on LED 28 is judged on the target and wins |

## Left out

- `HAL_Delay` and every pause are not modelled. The animations are reduced to the last frame they push and the buffer they leave: how many frames an animation pushes on the way is not kept. `GetTime` is modelled, but no step uses its value.
- `WS2812_Send` and the DMA/timer callback `HAL_TIM_PWM_PulseFinishedCallback` are not modelled. They only transmit the slot buffer.
- The button GPIO read is an input to the loop step. The life-LED GPIO writes are the `LifeLeds` triple kept in the state.
- `HAL_GetTick` is an input to the loop step. The source reads it twice, once when the wait starts (line 133) and once when it compares (line 135). Each of those reads happens in a different loop call, so each call uses one `now`.
- Interrupt preemption and `volatile` are not modelled. The button callback is an atomic step between whole loop steps.
- Lost: the intermediate life-LED write that shows zero lives just before they are refilled (line 108) is not kept. The model records the LED state as it ends.
- Lost: the number of flashes (two, or four on the last life) is not observable in the model, since both end on the same dark display; only the lives, level and life LEDs tell the two branches apart.
- WinChase: whether the two green blinks of the won animation ran before the chase at the top level is not observable, since the chase's first push overwrites the display they leave.
- Judge: the frozen stop frame (`CursorFrame`, with what it shows stated by `CursorFrameShows`) is pushed first, but it is not observable in the result of `Judge`, because the display keeps only the last push and the outcome animation overwrites it; the one-second pause it is held for is not modelled either.
- `wonThisRound` is not stored. Within the win branch it is always true when `increase_game_difficulty` runs, and it is false at every other point.
- 32-bit overflow of `LEDaddress`, `player_lives` and `difficulty` is not modelled. The invariant keeps them in 0..58, 1..3 and 1..8, far from the limits.
- Boot: the life LEDs before `Game_Setup` are taken as dark, and the initial buffer counts as a dark push. The slot buffer before setup is only the zeroed static array, and setup pushes a dark frame before anything reads it.
- Ws2812.SetLed: the source does not check the position. The model requires the 24 writes to stay inside `pwmData`, because a write outside the array has no defined meaning.
- Forward: the contract only keeps the display well formed; its buffer is stated by `ForwardBuffer` and `ForwardColorAt`.
- Backward: the contract only keeps the display well formed; its buffer is stated by `BackwardBuffer`, `BackwardColorAt` and `BackwardFaded`.
- ChaseStep: the contract only keeps the display well formed; what it pushes and leaves is stated by `ChaseStepEffect`.
- ForwardStrip: the contract only keeps the buffer length; its content is stated by `ForwardColorAt`.
- BackwardStrip: the contract only keeps the buffer length; its content is stated by `BackwardColorAt`.
- StripStep: the contract only keeps the buffer length; its content is stated by `StripStepIsSetThenFade`.
- CylonStrip: the contract only keeps the buffer length; its content is stated by `CylonColors`.
- Show: the contract states only the new buffer and pushed colours; its effect on the slot buffer is stated by `ShowFrame`, kept out of the contract so the game steps that push stay cheap to verify.
- Header content of Inc/game.h and Inc/ws2812.h beyond the LED count of 59 is not part of this model.

=== FILE: animations.dfy ===
/**
 The blocking animations of the game, reduced to their effect on the colour
 buffer and the persistent colour-wheel position. The pauses between frames
 are not modelled.
 */
module Animations {
  import opened Colors
  import Ws2812
  import opened LedStrip

  /**
   The colour buffer together with the colour buffer as it was last pushed to
   the strip. Every push rewrites all the data slots of the WS2812 buffer from
   the colour buffer and leaves the reset gap alone, so the slot buffer is
   always the render of the last pushed colours over the initial zeroed
   buffer (see `ShowFrame`).
   */
  datatype Display = Display(strip: seq<RGB>, shown: seq<RGB>)

  predicate Wf(d: Display)
  {
    IsStrip(d.strip) && IsStrip(d.shown)
  }

  /** The static slot buffer before anything is written: all zeros. */
  function Blank(): (f: seq<int>)
    ensures |f| == Ws2812.BufferLen
    ensures forall k :: 0 <= k < Ws2812.BufferLen ==> f[k] == 0
  {
    seq(Ws2812.BufferLen, _ => 0)
  }

  /** The WS2812 slot buffer as a display leaves it. */
  function Frame(d: Display): (f: seq<int>)
    requires Wf(d)
    ensures |f| == Ws2812.BufferLen
    ensures forall k :: 0 <= k < Ws2812.DataLen ==> f[k] == Ws2812.ZeroSlot || f[k] == Ws2812.OneSlot
    ensures forall k :: Ws2812.DataLen <= k < Ws2812.BufferLen ==> f[k] == 0
  {
    Render(d.shown, Blank())
  }

  /**
   `update_led_strip_to_physical_leds` on a display: `s` becomes the colour
   buffer and is pushed to the strip. The new display does not depend on `d`:
   the previous display matters only through the slot buffer it leaves, which
   `ShowFrame` relates to the new one.
   */
  function Show(d: Display, s: seq<RGB>): (e: Display)
    requires IsStrip(s)
    ensures Wf(e) && e.strip == s && e.shown == s
  {
    Display(s, s)
  }

  /**
   Pushing a colour buffer rewrites the slot buffer the previous display left
   in place, exactly as the source's render does over the global buffer.
   */
  lemma ShowFrame(d: Display, s: seq<RGB>)
    requires Wf(d) && IsStrip(s)
    ensures Frame(Show(d, s)) == Render(s, Frame(d))
  {
    RenderLast(d.shown, s, Blank());
  }

  /** Both the colour buffer and the pushed colours all black. */
  function Off(): (d: Display)
    ensures Wf(d)
  {
    Display(Dark(), Dark())
  }

  /**
   One blink: the whole strip in `c`, pushed, then the whole strip black,
   pushed. Whatever the display held, it ends dark. The pauses between the
   two frames are not modelled.
   */
  function Blink(d: Display, c: RGB): (e: Display)
    requires Wf(d)
    ensures e == Off()
  {
    var lit := Show(d, Fill(d.strip, c));
    var dark := Fill(lit.strip, Black);
    assert dark == Dark();
    Show(lit, dark)
  }

  /** `play_flash_animation`: one red blink. */
  function Flash(d: Display): (e: Display)
    requires Wf(d)
    ensures e == Off()
  {
    Blink(d, Red)
  }

  /** `n` flashes in a row, as the loss branches run them (2 or 4). */
  function Flashes(d: Display, n: nat): (e: Display)
    requires Wf(d)
    ensures Wf(e)
    ensures n == 0 ==> e == d
    ensures n > 0 ==> e == Off()
    decreases n
  {
    if n == 0 then d else Flashes(Flash(d), n - 1)
  }

  /** `play_won_animation`: two green blinks. */
  function WonAnimation(d: Display): (e: Display)
    requires Wf(d)
    ensures e == Off()
  {
    Blink(Blink(d, Green), Green)
  }

  /** After a blink every LED of the strip is off: each data slot a "0" bit. */
  lemma OffIsReset()
    ensures forall k :: 0 <= k < Ws2812.DataLen ==> Frame(Off())[k] == Ws2812.ZeroSlot
  {
    DarkRendersAsReset(Dark(), Blank());
  }

  /** The result of a chase: the display and the advanced wheel position. */
  datatype Chase = Chase(display: Display, wheel: Byte)

  /** The wheel position after `n` post-increments of a `uint8_t` starting at `w`. */
  function Advance(w: Byte, n: int): Byte
  {
    (w + n) % 256
  }

  /** The advanced position is the one byte congruent to `w + n` modulo 256. */
  lemma AdvanceCongruent(w: Byte, n: int, b: Byte)
    ensures (w + n - b) % 256 == 0 <==> b == Advance(w, n)
  {
    var r := Advance(w, n);
    var q := (w + n) / 256;
    assert w + n - r == 256 * q;
    Ws2812.ModUnique(w + n - r, 256, q, 0);
    if (w + n - b) % 256 == 0 {
      var q' := (w + n - b) / 256;
      assert w + n - b == 256 * q';
      assert r - b == 256 * (q' - q);
      if q' - q >= 1 {
        Ws2812.MulAtLeast(256, q' - q);
      } else if q' - q <= -1 {
        Ws2812.MulAtLeast(256, q - q');
      }
    } else if b == r {
      assert false;
    }
  }

  /** Advancing by `a` and then by `b` is advancing by `a + b`. */
  lemma AdvanceAdd(w: Byte, a: int, b: int)
    ensures Advance(Advance(w, a), b) == Advance(w, a + b)
  {
    var x := w + a;
    var y := x % 256 + b;
    assert x + b == y + 256 * (x / 256);
    Ws2812.ModUnique(x + b, 256, y / 256 + x / 256, y % 256);
  }

  lemma AdvanceZero(w: Byte)
    ensures Advance(w, 0) == w
  {
    Ws2812.ModUnique(w, 256, 0, w);
  }

  /**
   One step of a chase sweep on the colour buffer: LED `i` takes the wheel
   colour of position `pos`, then the whole buffer fades.
   */
  function StripStep(s: seq<RGB>, pos: Byte, i: int): (r: seq<RGB>)
    requires IsStrip(s) && 0 <= i < NumLeds
    ensures IsStrip(r)
  {
    seq(NumLeds, j requires 0 <= j < NumLeds => FadeColor(if j == i then ColorWheel(pos) else s[j]))
  }

  /** The step is the source's write of one LED followed by `apply_fade_to_all_leds`. */
  lemma StripStepIsSetThenFade(s: seq<RGB>, pos: Byte, i: int)
    requires IsStrip(s) && 0 <= i < NumLeds
    ensures StripStep(s, pos, i) == FadeAll(SetLed(s, i, ColorWheel(pos)))
  {
    var a := StripStep(s, pos, i);
    var b := FadeAll(SetLed(s, i, ColorWheel(pos)));
    forall j | 0 <= j < NumLeds ensures a[j] == b[j] {
    }
  }

  /** The colour buffer is the pushed colours faded once, as after every chase step. */
  predicate Faded(d: Display)
    requires Wf(d)
  {
    forall j :: 0 <= j < NumLeds ==> d.strip[j] == FadeColor(d.shown[j])
  }

  /**
   One step of a chase sweep at LED `i` with wheel position `pos`: the LED
   takes the wheel colour, the buffer is pushed to the strip, then the whole
   buffer fades (the fade reaches the strip only with the next push).
   */
  function ChaseStep(d: Display, pos: Byte, i: int): (e: Display)
    requires Wf(d) && 0 <= i < NumLeds
    ensures Wf(e)
  {
    var shown := Show(d, SetLed(d.strip, i, ColorWheel(pos)));
    Display(StripStep(d.strip, pos, i), shown.shown)
  }

  /**
   What a chase step pushes (the old buffer with LED `i` in its wheel colour)
   and what it leaves in the buffer (that push faded once).
   */
  lemma ChaseStepEffect(d: Display, pos: Byte, i: int)
    requires Wf(d) && 0 <= i < NumLeds
    ensures var e := ChaseStep(d, pos, i);
            e.shown[i] == ColorWheel(pos) &&
            (forall j :: 0 <= j < NumLeds && j != i ==> e.shown[j] == d.strip[j]) &&
            Faded(e) && e.strip == StripStep(d.strip, pos, i)
  {
  }

  /**
   The forward loop of `play_cylon_animation` on the colour buffer, from LED
   `i` to the last, for a sweep that started with wheel position `w`: step `i`
   uses the position after `i` post-increments. Every LED visited holds its
   wheel colour faded once per remaining step; LEDs before `i` only fade.
   */
  function ForwardStrip(s: seq<RGB>, w: Byte, i: int): (r: seq<RGB>)
    requires IsStrip(s) && 0 <= i <= NumLeds
    ensures IsStrip(r)
    decreases NumLeds - i
  {
    if i == NumLeds then s
    else ForwardStrip(StripStep(s, Advance(w, i), i), w, i + 1)
  }

  /** One more fade before `n` fades is `n + 1` fades. */
  lemma FadeFirst(c: RGB, n: nat)
    ensures FadeTimes(FadeColor(c), n) == FadeTimes(c, n + 1)
  {
  }

  /**
   What the forward loop leaves at LED `j`: its old colour faded once per
   remaining step if the sweep has passed it, else its wheel colour faded once
   per step from its own on.
   */
  lemma {:induction false} ForwardColorAt(s: seq<RGB>, w: Byte, i: int, j: int)
    requires IsStrip(s) && 0 <= i <= NumLeds && 0 <= j < NumLeds
    ensures j < i ==> ForwardStrip(s, w, i)[j] == FadeTimes(s[j], NumLeds - i)
    ensures i <= j ==> ForwardStrip(s, w, i)[j] == FadeTimes(ColorWheel(Advance(w, j)), NumLeds - j)
    decreases NumLeds - i
  {
    if i < NumLeds {
      var t := StripStep(s, Advance(w, i), i);
      var r := ForwardStrip(t, w, i + 1);
      assert ForwardStrip(s, w, i) == r;
      ForwardColorAt(t, w, i + 1, j);
      var left := NumLeds - (i + 1);
      assert left + 1 == NumLeds - i;
      if j < i {
        assert r[j] == FadeTimes(FadeColor(s[j]), left);
        FadeFirst(s[j], left);
      } else if j == i {
        assert r[j] == FadeTimes(FadeColor(ColorWheel(Advance(w, i))), left);
        FadeFirst(ColorWheel(Advance(w, i)), left);
      }
    } else {
      assert FadeTimes(s[j], 0) == s[j];
    }
  }

  /** The forward loop on the display: the buffer evolves as above and every step is pushed. */
  function Forward(d: Display, w: Byte, i: int): (e: Display)
    requires Wf(d) && 0 <= i <= NumLeds
    ensures Wf(e)
    decreases NumLeds - i
  {
    if i == NumLeds then d
    else Forward(ChaseStep(d, Advance(w, i), i), w, i + 1)
  }

  /** The buffer the forward loop leaves on the display is the one computed on the colour buffer alone. */
  lemma {:induction false} ForwardBuffer(d: Display, w: Byte, i: int)
    requires Wf(d) && 0 <= i <= NumLeds
    ensures Forward(d, w, i).strip == ForwardStrip(d.strip, w, i)
    decreases NumLeds - i
  {
    if i < NumLeds {
      ChaseStepEffect(d, Advance(w, i), i);
      ForwardBuffer(ChaseStep(d, Advance(w, i), i), w, i + 1);
    }
  }

  /**
   The colour LED `j` is left with by a chase that started at wheel position
   `w`: the backward sweep writes it at step `59 + (58 - j)` and it then fades
   once in that step and once in each of the `j` steps after it.
   */
  function TrailColor(w: Byte, j: int): RGB
    requires 0 <= j < NumLeds
  {
    FadeTimes(ColorWheel(Advance(w, 2 * NumLeds - 1 - j)), j + 1)
  }

  /**
   The backward loop of `play_cylon_animation` on the colour buffer, from LED
   `i` down to LED 0, in a chase that started with wheel position `w`. LEDs
   `j <= i` end with their trail colour; LEDs above `i` only fade.
   */
  function BackwardStrip(s: seq<RGB>, w: Byte, i: int): (r: seq<RGB>)
    requires IsStrip(s) && -1 <= i < NumLeds
    ensures IsStrip(r)
    decreases i + 1
  {
    if i < 0 then s
    else BackwardStrip(StripStep(s, Advance(w, 2 * NumLeds - 1 - i), i), w, i - 1)
  }

  /**
   What the backward loop leaves at LED `j`: its trail colour once the sweep
   has reached it, else its old colour faded once per step.
   */
  lemma {:induction false} BackwardColorAt(s: seq<RGB>, w: Byte, i: int, j: int)
    requires IsStrip(s) && -1 <= i < NumLeds && 0 <= j < NumLeds
    ensures BackwardStrip(s, w, i)[j] ==
              if i < j then FadeTimes(s[j], i + 1) else TrailColor(w, j)
    decreases i + 1
  {
    if 0 <= i {
      var t := StripStep(s, Advance(w, 2 * NumLeds - 1 - i), i);
      var r := BackwardStrip(t, w, i - 1);
      assert BackwardStrip(s, w, i) == r;
      BackwardColorAt(t, w, i - 1, j);
      if i < j {
        assert r[j] == FadeTimes(FadeColor(s[j]), i);
        FadeFirst(s[j], i);
      } else if j == i {
        assert r[j] == FadeTimes(FadeColor(ColorWheel(Advance(w, 2 * NumLeds - 1 - i))), i);
        FadeFirst(ColorWheel(Advance(w, 2 * NumLeds - 1 - i)), i);
      }
    } else {
      assert FadeTimes(s[j], 0) == s[j];
    }
  }

  /** The backward loop on the display. */
  function Backward(d: Display, w: Byte, i: int): (e: Display)
    requires Wf(d) && -1 <= i < NumLeds
    ensures Wf(e)
    decreases i + 1
  {
    if i < 0 then d
    else Backward(ChaseStep(d, Advance(w, 2 * NumLeds - 1 - i), i), w, i - 1)
  }

  /** The buffer the backward loop leaves on the display is the one computed on the colour buffer alone. */
  lemma {:induction false} BackwardBuffer(d: Display, w: Byte, i: int)
    requires Wf(d) && -1 <= i < NumLeds
    ensures Backward(d, w, i).strip == BackwardStrip(d.strip, w, i)
    decreases i + 1
  {
    if 0 <= i {
      ChaseStepEffect(d, Advance(w, 2 * NumLeds - 1 - i), i);
      BackwardBuffer(ChaseStep(d, Advance(w, 2 * NumLeds - 1 - i), i), w, i - 1);
    }
  }

  /** A backward loop that takes at least one step leaves the buffer as its last push faded once. */
  lemma {:induction false} BackwardFaded(d: Display, w: Byte, i: int)
    requires Wf(d) && 0 <= i < NumLeds
    ensures Faded(Backward(d, w, i))
    decreases i
  {
    var e := ChaseStep(d, Advance(w, 2 * NumLeds - 1 - i), i);
    ChaseStepEffect(d, Advance(w, 2 * NumLeds - 1 - i), i);
    if 0 < i {
      BackwardFaded(e, w, i - 1);
    } else {
      assert Backward(d, w, i) == Backward(e, w, -1);
    }
  }

  /**
   The colour buffer after one chase started with wheel position `w`: LED `j`
   ends with its trail colour, whatever the buffer held before.
   */
  function CylonStrip(s: seq<RGB>, w: Byte): (r: seq<RGB>)
    requires IsStrip(s)
    ensures IsStrip(r)
  {
    BackwardStrip(ForwardStrip(s, w, 0), w, NumLeds - 1)
  }

  lemma CylonColors(s: seq<RGB>, w: Byte)
    requires IsStrip(s)
    ensures forall j :: 0 <= j < NumLeds ==> CylonStrip(s, w)[j] == TrailColor(w, j)
  {
    forall j | 0 <= j < NumLeds ensures CylonStrip(s, w)[j] == TrailColor(w, j) {
      BackwardColorAt(ForwardStrip(s, w, 0), w, NumLeds - 1, j);
    }
  }

  /**
   `play_cylon_animation`: a forward and a backward sweep, each step pushed.
   The wheel advances by 2 * 59 = 118.
   */
  function Cylon(d: Display, w: Byte): (r: Chase)
    requires Wf(d)
    ensures Wf(r.display)
    ensures r.wheel == Advance(w, 2 * NumLeds)
  {
    Chase(Backward(Forward(d, w, 0), w, NumLeds - 1), Advance(w, 2 * NumLeds))
  }

  /**
   Whatever the buffer held before, a chase that starts at wheel position `w`
   leaves LED `j` with the wheel colour of position `w + 117 - j` faded
   `j + 1` times.
   */
  lemma CylonTrail(d: Display, w: Byte)
    requires Wf(d)
    ensures forall j :: 0 <= j < NumLeds ==> Cylon(d, w).display.strip[j] == TrailColor(w, j)
    ensures Faded(Cylon(d, w).display)
  {
    var f := Forward(d, w, 0);
    ForwardBuffer(d, w, 0);
    BackwardBuffer(f, w, NumLeds - 1);
    CylonColors(d.strip, w);
    BackwardFaded(f, w, NumLeds - 1);
  }

  /** `n` chase animations in a row, as the win branches run them (2). */
  function Cylons(d: Display, w: Byte, n: nat): (r: Chase)
    requires Wf(d)
    ensures Wf(r.display)
    ensures r.wheel == Advance(w, 2 * NumLeds * n)
    decreases n
  {
    if n == 0 then
      AdvanceZero(w);
      Chase(d, w)
    else
      var prev := Cylons(d, w, n - 1);
      var before := 2 * NumLeds * (n - 1);
      assert before + 2 * NumLeds == 2 * NumLeds * n;
      AdvanceAdd(w, before, 2 * NumLeds);
      Cylon(prev.display, prev.wheel)
  }

  /**
   After `n > 0` chases the buffer holds the trail of the last one, which
   started where the first `n - 1` left the wheel.
   */
  lemma CylonsTrail(d: Display, w: Byte, n: nat)
    requires Wf(d) && n > 0
    ensures forall j :: 0 <= j < NumLeds ==>
              Cylons(d, w, n).display.strip[j] == TrailColor(Advance(w, 2 * NumLeds * (n - 1)), j)
    ensures Faded(Cylons(d, w, n).display)
  {
    var prev := Cylons(d, w, n - 1);
    CylonTrail(prev.display, prev.wheel);
  }
}

=== FILE: colors.dfy ===
/**
 Colour arithmetic of the LED game: the 8-bit RGB triple kept per LED, the
 brightness scaling applied when a frame is pushed to the strip, the fade
 used for the chase trail and the rainbow colour wheel.
 */
module Colors {

  /** An 8-bit unsigned channel value (`uint8_t`). */
  type Byte = x: int | 0 <= x < 256

  /** One LED of the logical colour buffer. */
  datatype RGB = RGB(r: Byte, g: Byte, b: Byte)

  const Black: RGB := RGB(0, 0, 0)
  const Red: RGB := RGB(255, 0, 0)
  const Green: RGB := RGB(0, 255, 0)
  const Blue: RGB := RGB(0, 0, 255)

  /** The brightness the game renders with; it is never changed. */
  const GlobalBrightness: Byte := 100

  /**
   One channel scaled by a brightness, `value * brightness / 255` computed in
   16 bits (255 * 255 fits, so nothing wraps) with floor division.
   */
  function ScaleChannel(v: Byte, brightness: Byte): (s: Byte)
    ensures s * 255 <= v * brightness < s * 255 + 255
    ensures s <= v
    ensures brightness == 255 ==> s == v
    ensures brightness == 0 || v == 0 ==> s == 0
  {
    ProductBound(v, brightness);
    var s := v * brightness / 255;
    assert s <= v by { ScaledNotAbove(v, brightness); }
    s
  }

  /** The product of two channel values, bounded by the product of their bounds. */
  lemma ProductBound(v: Byte, w: Byte)
    ensures 0 <= v * w <= v * 255 <= 255 * 255
  {
  }

  lemma ScaledNotAbove(v: Byte, brightness: Byte)
    ensures v * brightness / 255 <= v
  {
    ProductBound(v, brightness);
  }

  /** Brightness scaling never makes a brighter input darker. */
  lemma ScaleMonotone(v1: Byte, v2: Byte, brightness: Byte)
    requires v1 <= v2
    ensures ScaleChannel(v1, brightness) <= ScaleChannel(v2, brightness)
  {
    var p1 := v1 * brightness;
    var p2 := v2 * brightness;
    assert p1 <= p2 by {
      assert p2 - p1 == (v2 - v1) * brightness;
      ProductBound(v2 - v1, brightness);
    }
    assert p1 / 255 <= p2 / 255;
  }

  /** The colour sent to the strip for a logical colour at a given brightness. */
  function ScaleColor(c: RGB, brightness: Byte): (s: RGB)
    ensures s.r <= c.r && s.g <= c.g && s.b <= c.b
    ensures brightness == 255 ==> s == c
    ensures c == Black ==> s == Black
  {
    RGB(ScaleChannel(c.r, brightness), ScaleChannel(c.g, brightness), ScaleChannel(c.b, brightness))
  }

  /**
   One channel faded by the chase trail's `fade_amount` of 245/256, with
   floor division (computed in 32 bits, so nothing wraps).
   */
  function FadeChannel(v: Byte): (f: Byte)
    ensures 256 * f <= 245 * v < 256 * f + 256
    ensures v == 0 ==> f == 0
    ensures v > 0 ==> f < v
  {
    245 * v / 256
  }

  function FadeColor(c: RGB): (f: RGB)
    ensures f.r <= c.r && f.g <= c.g && f.b <= c.b
    ensures f == c <==> c == Black
  {
    RGB(FadeChannel(c.r), FadeChannel(c.g), FadeChannel(c.b))
  }

  /** A colour after `n` fades of the chase trail. */
  function FadeTimes(c: RGB, n: nat): (f: RGB)
    ensures f.r <= c.r && f.g <= c.g && f.b <= c.b
    ensures c == Black ==> f == Black
    decreases n
  {
    if n == 0 then c else FadeTimes(FadeColor(c), n - 1)
  }

  /** Fading a colour that is not black at least once always makes it darker. */
  lemma FadeTimesDarkens(c: RGB, n: nat)
    requires n > 0 && c != Black
    ensures FadeTimes(c, n) != c
  {
    var f := FadeColor(c);
    assert FadeTimes(c, n) == FadeTimes(f, n - 1);
    assert f.r < c.r || f.g < c.g || f.b < c.b;
  }

  /** Fading `a` times and then `b` times is fading `a + b` times. */
  lemma {:induction false} FadeTimesAdd(c: RGB, a: nat, b: nat)
    ensures FadeTimes(FadeTimes(c, a), b) == FadeTimes(c, a + b)
    decreases a
  {
    if a > 0 {
      FadeTimesAdd(FadeColor(c), a - 1, b);
    }
  }

  /** The index at which the wheel's second and third segments start. */
  const WheelSegment: Byte := 85

  /**
   The rainbow colour for a wheel position: the position is complemented and
   the result split into three segments of a piecewise-linear hue.
   */
  function ColorWheel(pos: Byte): (c: RGB)
    ensures c.r + c.g + c.b == 255
    ensures c.r == 0 || c.g == 0 || c.b == 0
  {
    var w := 255 - pos;
    if w < WheelSegment then
      RGB(255 - w * 3, 0, w * 3)
    else if w < 2 * WheelSegment then
      var w' := w - WheelSegment;
      RGB(0, w' * 3, 255 - w' * 3)
    else
      var w' := w - 2 * WheelSegment;
      RGB(w' * 3, 255 - w' * 3, 0)
  }

  /** The wheel passes red, green and blue at positions 0, 85, 170 and closes on red at 255. */
  lemma WheelAnchors()
    ensures ColorWheel(0) == Red && ColorWheel(85) == Green
    ensures ColorWheel(170) == Blue && ColorWheel(255) == Red
  {
  }

  /** Apart from the shared red at both ends, no two wheel positions give the same colour. */
  lemma WheelInjective(p: Byte, q: Byte)
    requires 1 <= p && 1 <= q && p != q
    ensures ColorWheel(p) != ColorWheel(q)
  {
  }
}

=== FILE: game.dfy ===
/**
 The cyclone game: a green cursor runs round a ring of 59 LEDs and the player
 has to stop it on the red target LED. One call of the main loop is one step
 of the state machine; the button interrupt is a separate atomic step between
 loop calls. The button level and the millisecond tick are inputs of a step;
 the three life LEDs are an output kept in the state.
 */
module Game {
  import opened Colors
  import Ws2812
  import opened LedStrip
  import opened Animations

  /** The lowest and the highest difficulty level (`EASY`, `MISSION_IMPOSSIBLE`). */
  const Easy: int := 1
  const MissionImpossible: int := 8

  /** The lives a fresh game starts with. */
  const MaxLives: int := 3

  /** How long, in ticks, the button must read released before a new round starts. */
  const StableRelease: int := 100

  /** `uint32_t` values, the width of the millisecond tick. */
  const TickRange: int := 0x1_0000_0000

  // ---------------------------------------------------------------------------
  // Life LEDs
  // ---------------------------------------------------------------------------

  /**
   The three life LEDs by the name of their pin: `LIFE_LED_1` is the first
   life to go, `LIFE_LED_3` the last.
   */
  datatype LifeLeds = LifeLeds(life1: bool, life2: bool, life3: bool)

  const AllOff: LifeLeds := LifeLeds(false, false, false)

  /** How many life LEDs are lit. */
  function LitCount(l: LifeLeds): int
  {
    (if l.life1 then 1 else 0) + (if l.life2 then 1 else 0) + (if l.life3 then 1 else 0)
  }

  /**
   `update_life_leds`: one LED per remaining life, up to three, and they go
   out in order (LED 1 before LED 2 before LED 3).
   */
  function Indicators(lives: int): (l: LifeLeds)
    ensures LitCount(l) == if lives <= 0 then 0 else if lives >= MaxLives then MaxLives else lives
    ensures l.life1 ==> l.life2
    ensures l.life2 ==> l.life3
  {
    LifeLeds(lives >= 3, lives >= 2, lives >= 1)
  }

  /** The indicator pattern tells the lives apart within the range the game keeps. */
  lemma IndicatorsInjective(a: int, b: int)
    requires 1 <= a <= MaxLives && 1 <= b <= MaxLives && a != b
    ensures Indicators(a) != Indicators(b)
  {
    assert LitCount(Indicators(a)) == a;
    assert LitCount(Indicators(b)) == b;
  }

  // ---------------------------------------------------------------------------
  // Difficulty
  // ---------------------------------------------------------------------------

  /** A difficulty level the game can be at. */
  predicate IsLevel(d: int)
  {
    Easy <= d <= MissionImpossible
  }

  /**
   `getTime`: the pause, in milliseconds, between two cursor moves at a level;
   a value outside the eight levels falls back to 100.
   */
  function GetTime(level: int): (t: int)
    ensures 20 <= t <= 200
    ensures !IsLevel(level) ==> t == 100
    ensures level == Easy <==> t == 200
    ensures level == MissionImpossible <==> t == 20
  {
    match level
    case 1 => 200
    case 2 => 150
    case 3 => 100
    case 4 => 80
    case 5 => 60
    case 6 => 50
    case 7 => 30
    case 8 => 20
    case _ => 100
  }

  /** Every level is strictly faster than the one below it. */
  lemma {:induction false} GetTimeDecreasing(a: int, b: int)
    requires IsLevel(a) && IsLevel(b) && a < b
    ensures GetTime(b) < GetTime(a)
    decreases b - a
  {
    if b > a + 1 {
      GetTimeDecreasing(a, b - 1);
      GetTimeDecreasing(b - 1, b);
    }
  }

  /**
   `increase_game_difficulty`: after a won round the level goes up by one, and
   from the top level back to the first; without a win nothing changes.
   */
  function IncreaseDifficulty(d: int, won: bool): (r: int)
    ensures IsLevel(d) ==> IsLevel(r)
    ensures !won ==> r == d
    ensures won && IsLevel(d) ==> r != d
    ensures won && Easy <= d < MissionImpossible ==> r == d + 1
    ensures won && d == MissionImpossible ==> r == Easy
  {
    if won then (if d < MissionImpossible then d + 1 else 1) else d
  }

  /**
   The level a won round leaves, as the win branch of `Game_Loop` sets it:
   one level up below the top; at the top the branch first goes back to
   `EASY` and the raise that follows gives level 2.
   */
  function WinLevel(d: int): (r: int)
    requires IsLevel(d)
    ensures IsLevel(r) && r != Easy
    ensures d < MissionImpossible ==> r == d + 1
    ensures d == MissionImpossible ==> r == 2
  {
    IncreaseDifficulty(if d == MissionImpossible then Easy else d, true)
  }

  /** The level after `n` won rounds in a row. */
  function AfterWinningRounds(d: int, n: nat): (r: int)
    requires IsLevel(d)
    ensures IsLevel(r)
    decreases n
  {
    if n == 0 then d else AfterWinningRounds(WinLevel(d), n - 1)
  }

  /** Won rounds climb one level each until the top level. */
  lemma {:induction false} WinsClimb(d: int, n: nat)
    requires IsLevel(d) && d + n <= MissionImpossible
    ensures AfterWinningRounds(d, n) == d + n
    decreases n
  {
    if n > 0 {
      WinsClimb(d + 1, n - 1);
    }
  }

  /** `a` won rounds followed by `b` won rounds are `a + b` won rounds. */
  lemma {:induction false} WinsSplit(d: int, a: nat, b: nat)
    requires IsLevel(d)
    ensures AfterWinningRounds(AfterWinningRounds(d, a), b) == AfterWinningRounds(d, a + b)
    decreases a
  {
    if a > 0 {
      WinsSplit(WinLevel(d), a - 1, b);
    }
  }

  /** Once a round is won the level never returns to 1 by winning. */
  lemma {:induction false} WinsNeverEasy(d: int, n: nat)
    requires IsLevel(d) && n > 0
    ensures AfterWinningRounds(d, n) != Easy
    decreases n
  {
    if n > 1 {
      WinsNeverEasy(WinLevel(d), n - 1);
    } else {
      assert AfterWinningRounds(d, n) == AfterWinningRounds(WinLevel(d), 0);
    }
  }

  /**
   Above level 1, won rounds cycle through the seven levels 2..8: after
   seven wins in a row the game is back at the same level.
   */
  lemma WinsCycle(d: int)
    requires IsLevel(d) && d != Easy
    ensures AfterWinningRounds(d, 7) == d
  {
    var up := MissionImpossible - d;
    WinsClimb(d, up);
    assert AfterWinningRounds(MissionImpossible, 1) == 2 by {
      assert AfterWinningRounds(MissionImpossible, 1) == AfterWinningRounds(2, 0);
    }
    WinsSplit(d, up, 1);
    WinsClimb(2, d - 2);
    WinsSplit(d, up + 1, d - 2);
  }

  // ---------------------------------------------------------------------------
  // Judging a stop
  // ---------------------------------------------------------------------------

  /** How far the cursor stopped from the target, in either direction. */
  function Distance(address: int): (n: nat)
    ensures n == 0 <==> address == Center
  {
    if Center - address >= 0 then Center - address else address - Center
  }

  /** The distance does not depend on the side of the target the cursor stopped on. */
  lemma DistanceSymmetric(k: int)
    ensures Distance(Center + k) == Distance(Center - k)
    ensures Distance(Center + k) == if k >= 0 then k else -k
  {
  }

  /**
   The frame shown while the cursor runs and when it is stopped: every LED
   black except the red target and the green cursor; a cursor on the target
   shows green, and a cursor off the strip shows nothing.
   */
  function TargetFrame(s: seq<RGB>, address: int): (r: seq<RGB>)
    requires IsStrip(s)
    ensures IsStrip(r)
    ensures forall j :: 0 <= j < NumLeds ==>
              r[j] == if j == address then Green else if j == Center then Red else Black
  {
    SetLed(SetLed(Fill(s, Black), Center, Red), address, Green)
  }

  // ---------------------------------------------------------------------------
  // State
  // ---------------------------------------------------------------------------

  /** A reading of the button pin: `GPIO_PIN_RESET` is a released button. */
  datatype Button = Released | Pressed

  /**
   The game's static variables. `wonThisRound` is not kept: it is set and
   cleared again within one judged step, so it reads false between steps.
   */
  datatype State = State(
    playing: bool,
    cycleEnded: bool,
    difficulty: int,
    lives: int,
    address: int,
    releasedAt: int,
    waiting: bool,
    display: Display,
    wheel: Byte,
    leds: LifeLeds)

  /** What the types of the source guarantee: buffer sizes and a 32-bit tick. */
  predicate Shape(g: State)
  {
    Wf(g.display) && 0 <= g.releasedAt < TickRange
  }

  /** What every step of the game keeps. */
  predicate Inv(g: State)
  {
    Shape(g) &&
    IsLevel(g.difficulty) && 1 <= g.lives <= MaxLives &&
    0 <= g.address < NumLeds && g.leds == Indicators(g.lives)
  }

  /**
   The static initialisers: the game starts running (`Playing` and
   `CycleEnded` both true), at the first level with three lives, on a dark
   colour buffer and wheel position 0. Nothing has been pushed to the strip
   yet; the display counts as a dark push, which the dark push of
   `Game_Setup` replaces. The life LEDs are taken to start dark.
   */
  function Boot(): (g: State)
    ensures Shape(g) && g.display == Off()
    ensures g.playing && g.cycleEnded
    ensures g.difficulty == Easy && g.lives == MaxLives && g.address == 0
    ensures g.wheel == 0 && !g.waiting && g.releasedAt == 0 && g.leds == AllOff
  {
    State(true, true, Easy, MaxLives, 0, 0, false, Off(), 0, AllOff)
  }

  /** `Game_Setup`: a dark strip rendered, the life LEDs lit, the cursor at LED 0. */
  function Setup(g: State): (r: State)
    requires Shape(g)
    ensures Shape(r) && r.display == Off()
    ensures r.leds == Indicators(g.lives) && r.address == 0
    ensures r.playing == g.playing && r.cycleEnded == g.cycleEnded
    ensures r.difficulty == g.difficulty && r.lives == g.lives && r.wheel == g.wheel
  {
    var dark := Fill(g.display.strip, Black);
    assert dark == Dark();
    g.(display := Show(g.display, dark), leds := Indicators(g.lives), address := 0)
  }

  /** After boot and setup the game is in a state every later step keeps. */
  lemma SetupEstablishesInv()
    ensures Inv(Setup(Boot()))
    ensures Setup(Boot()).playing && Setup(Boot()).cycleEnded
  {
  }

  /**
   `Game_ButtonPressCallback`: a press while the cursor runs stops it and asks
   for the stop to be judged; a press at any other time changes nothing.
   */
  function ButtonPress(g: State): (r: State)
    ensures !r.playing
    ensures g.playing ==> r.cycleEnded
    ensures !g.playing ==> r == g
    ensures r.(playing := g.playing, cycleEnded := g.cycleEnded) == g
  {
    if g.playing then g.(playing := false, cycleEnded := true) else g
  }

  // ---------------------------------------------------------------------------
  // One loop step
  // ---------------------------------------------------------------------------

  /**
   The animations of a won round: at the top level two green blinks, then in
   every case the chase twice, each chase moving the wheel on by 118.
   */
  function WinChase(shown: Display, wheel: Byte, top: bool): (r: Chase)
    requires Wf(shown)
    ensures Wf(r.display)
    ensures r.wheel == Advance(wheel, 4 * NumLeds)
  {
    Cylons(if top then WonAnimation(shown) else shown, wheel, 2)
  }

  /**
   A won round, from the shown stop frame on: the animations play and the
   level is raised. At the top level the level and the lives are first reset
   (`EASY`, three lives), and the raise then takes the game to level 2.
   */
  function Won(g: State, shown: Display): (r: State)
    requires Wf(shown)
    ensures Wf(r.display)
    ensures r.difficulty == if g.difficulty == MissionImpossible then 2 else IncreaseDifficulty(g.difficulty, true)
    ensures g.difficulty == MissionImpossible ==> r.lives == MaxLives && r.leds == Indicators(MaxLives)
    ensures g.difficulty != MissionImpossible ==> r.lives == g.lives && r.leds == g.leds
    ensures r.playing == g.playing && r.cycleEnded == g.cycleEnded && r.waiting == g.waiting
    ensures r.address == g.address && r.releasedAt == g.releasedAt
  {
    var top := g.difficulty == MissionImpossible;
    var chase := WinChase(shown, g.wheel, top);
    var after := g.(display := chase.display, wheel := chase.wheel);
    if top then
      after.(difficulty := IncreaseDifficulty(Easy, true), lives := MaxLives, leds := Indicators(MaxLives))
    else
      after.(difficulty := IncreaseDifficulty(g.difficulty, true))
  }

  /**
   A lost round, from the shown stop frame on: a life is taken and the red
   flash plays twice; on the last life it plays four times and the game
   starts over with three lives at the first level.
   */
  function Lost(g: State, shown: Display): (r: State)
    requires Wf(shown)
    ensures Wf(r.display)
    ensures g.lives > 1 ==> r.lives == g.lives - 1 && r.difficulty == g.difficulty
    ensures g.lives <= 1 ==> r.lives == MaxLives && r.difficulty == Easy
    ensures r.leds == Indicators(r.lives)
    ensures r.playing == g.playing && r.cycleEnded == g.cycleEnded && r.waiting == g.waiting
    ensures r.address == g.address && r.releasedAt == g.releasedAt && r.wheel == g.wheel
  {
    var lives := g.lives - 1;
    if lives > 0 then
      g.(display := Flashes(shown, 2), lives := lives, leds := Indicators(lives))
    else
      g.(display := Flashes(shown, 4), lives := MaxLives,
         leds := Indicators(MaxLives), difficulty := Easy)
  }

  /**
   The target and the cursor at its current LED pushed to the strip: the
   frame a running step shows, and the frozen frame a stop is judged on.
   */
  function CursorFrame(g: State): (d: Display)
    requires Shape(g)
    ensures Wf(d) && d.strip == d.shown
    ensures forall j :: 0 <= j < NumLeds ==>
              d.shown[j] == if j == g.address then Green else if j == Center then Red else Black
  {
    Show(g.display, TargetFrame(g.display.strip, g.address))
  }

  /**
   The judged part of `Game_Loop`, run once after a stop: every LED but the
   target and the cursor goes dark and the frame is shown, the round is won
   exactly when the cursor stopped on the target, and afterwards the stop is
   marked as judged and any pending wait for a release is dropped.
   */
  function Judge(g: State): (r: State)
    requires Shape(g)
    ensures Shape(r)
    ensures !r.cycleEnded && !r.waiting
    ensures r.playing == g.playing && r.address == g.address && r.releasedAt == g.releasedAt
  {
    var shown := CursorFrame(g);
    var judged := g.(cycleEnded := false, waiting := false);
    if Distance(g.address) == 0 then Won(judged, shown) else Lost(judged, shown)
  }

  /** The tick count elapsed since `seen`, in the source's unsigned 32-bit subtraction. */
  function Elapsed(now: int, seen: int): (e: int)
    requires 0 <= now < TickRange && 0 <= seen < TickRange
    ensures 0 <= e < TickRange
    ensures seen <= now ==> e == now - seen
    ensures now < seen ==> e == now - seen + TickRange
  {
    (now - seen) % TickRange
  }

  /**
   The debounce part of `Game_Loop` while the cursor is stopped: a first
   released reading starts the wait, a released reading more than 100 ticks
   later starts a new round at LED 0 with only the target lit, and a pressed
   reading cancels the wait.
   */
  function Debounce(g: State, button: Button, now: int): (r: State)
    requires Shape(g) && !g.playing && 0 <= now < TickRange
    ensures Shape(r)
    ensures r.playing <==> button == Released && g.waiting && Elapsed(now, g.releasedAt) > StableRelease
    ensures button == Pressed ==> !r.waiting
    ensures button == Released && !g.waiting ==> r.waiting && r.releasedAt == now
    ensures r.playing ==> r.address == 0 && !r.waiting
    ensures !r.playing ==> r.address == g.address
    ensures r.difficulty == g.difficulty && r.lives == g.lives && r.leds == g.leds
    ensures r.cycleEnded == g.cycleEnded
    ensures button == Pressed ==> r == g.(waiting := false)
    ensures button == Released && !g.waiting ==> r == g.(waiting := true, releasedAt := now)
    ensures button == Released && g.waiting && !r.playing ==> r == g
    ensures r.wheel == g.wheel && (r.playing ==> r.releasedAt == g.releasedAt)
  {
    match button
    case Released =>
      if !g.waiting then
        g.(waiting := true, releasedAt := now)
      else if Elapsed(now, g.releasedAt) > StableRelease then
        var target := SetLed(Fill(g.display.strip, Black), Center, Red);
        g.(playing := true, address := 0, display := Show(g.display, target), waiting := false)
      else
        g
    case Pressed =>
      g.(waiting := false)
  }

  /**
   The running part of `Game_Loop`: the cursor frame is shown, then the
   cursor moves one LED on, wrapping from the last LED to the first.
   */
  function FreeRun(g: State): (r: State)
    requires Shape(g)
    ensures Shape(r)
    ensures 0 <= g.address < NumLeds ==> r.address == (g.address + 1) % NumLeds
    ensures r.playing == g.playing && r.cycleEnded == g.cycleEnded && r.waiting == g.waiting
    ensures r.difficulty == g.difficulty && r.lives == g.lives && r.leds == g.leds
    ensures r.releasedAt == g.releasedAt && r.wheel == g.wheel
  {
    var shown := CursorFrame(g);
    var next := g.address + 1;
    g.(display := shown, address := if next == NumLeds then 0 else next)
  }

  /**
   `Game_Loop`: while the cursor is stopped, the stop is judged once and then
   the button is debounced; whenever the cursor runs (including right after a
   restart in the same call) it is drawn and moved.
   */
  function Loop(g: State, button: Button, now: int): (r: State)
    requires Shape(g) && 0 <= now < TickRange
    ensures Shape(r)
    ensures r.playing <==> g.playing || (button == Released && !g.cycleEnded && g.waiting && Elapsed(now, g.releasedAt) > StableRelease)
  {
    var stopped := if g.playing then g else Debounce(JudgePending(g), button, now);
    if stopped.playing then FreeRun(stopped) else stopped
  }

  /** The state after the judged part of a loop step: judged only once after a stop. */
  function JudgePending(g: State): (r: State)
    requires Shape(g)
    ensures Shape(r)
    ensures !g.cycleEnded ==> r == g
    ensures r.releasedAt == g.releasedAt && r.playing == g.playing
  {
    if !g.playing && g.cycleEnded then Judge(g) else g
  }

  // ---------------------------------------------------------------------------
  // Properties of the step
  // ---------------------------------------------------------------------------

  /** A stop on the target raises the level; at the top level it also refills the lives. */
  lemma JudgeWins(g: State)
    requires Inv(g) && g.address == Center
    ensures var r := Judge(g);
            r.difficulty == (if g.difficulty == MissionImpossible then 2 else g.difficulty + 1) &&
            r.difficulty == WinLevel(g.difficulty) &&
            r.lives == (if g.difficulty == MissionImpossible then MaxLives else g.lives) &&
            r.leds == Indicators(r.lives)
    ensures Inv(Judge(g))
  {
    var shown := CursorFrame(g);
    var judged := g.(cycleEnded := false, waiting := false);
    var r := Won(judged, shown);
    assert Judge(g).difficulty == r.difficulty && Judge(g).lives == r.lives && Judge(g).leds == r.leds;
  }

  /** A stop off the target takes a life; the last life restarts the game at the first level. */
  lemma JudgeLoses(g: State)
    requires Inv(g) && g.address != Center
    ensures var r := Judge(g);
            r.lives == (if g.lives > 1 then g.lives - 1 else MaxLives) &&
            r.difficulty == (if g.lives > 1 then g.difficulty else Easy) &&
            r.leds == Indicators(r.lives)
    ensures Inv(Judge(g))
  {
    var shown := CursorFrame(g);
    var judged := g.(cycleEnded := false, waiting := false);
    var r := Lost(judged, shown);
    assert Judge(g).difficulty == r.difficulty && Judge(g).lives == r.lives && Judge(g).leds == r.leds;
  }

  /** A won round never costs a life, and a lost one never raises the level. */
  lemma JudgeMonotone(g: State)
    requires Inv(g)
    ensures g.address == Center ==> Judge(g).lives >= g.lives
    ensures g.address != Center ==> Judge(g).difficulty <= g.difficulty
  {
    if g.address == Center {
      JudgeWins(g);
    } else {
      JudgeLoses(g);
    }
  }

  /** Judging a stop keeps level, lives and life LEDs consistent. */
  lemma JudgeKeepsInv(g: State)
    requires Inv(g)
    ensures Inv(Judge(g))
  {
    if g.address == Center {
      JudgeWins(g);
    } else {
      JudgeLoses(g);
    }
  }

  lemma DebounceKeepsInv(g: State, button: Button, now: int)
    requires Inv(g) && !g.playing && 0 <= now < TickRange
    ensures Inv(Debounce(g, button, now))
  {
  }

  lemma FreeRunKeepsInv(g: State)
    requires Inv(g)
    ensures Inv(FreeRun(g))
  {
  }

  /** Every loop step keeps the invariant: level, lives, cursor and life LEDs stay consistent. */
  lemma LoopKeepsInv(g: State, button: Button, now: int)
    requires Inv(g) && 0 <= now < TickRange
    ensures Inv(Loop(g, button, now))
  {
    var j := JudgePending(g);
    if !g.playing && g.cycleEnded {
      JudgeKeepsInv(g);
    }
    assert Inv(j);
    if !g.playing {
      DebounceKeepsInv(j, button, now);
      var d := Debounce(j, button, now);
      if d.playing {
        FreeRunKeepsInv(d);
      }
    } else {
      FreeRunKeepsInv(g);
    }
  }

  /** While the cursor runs, a loop step only moves it one LED on, wrapping at the end of the ring. */
  lemma LoopRuns(g: State, button: Button, now: int)
    requires Inv(g) && g.playing && 0 <= now < TickRange
    ensures var r := Loop(g, button, now);
            r.playing && r.address == (g.address + 1) % NumLeds &&
            r.difficulty == g.difficulty && r.lives == g.lives && r.waiting == g.waiting &&
            r.wheel == g.wheel
  {
  }

  /**
   The step right after a stop judges it and never restarts the round at
   once: the judgement drops any pending wait, so a released reading only
   starts the wait for a stable release.
   */
  lemma LoopJudges(g: State, button: Button, now: int)
    requires Inv(g) && !g.playing && g.cycleEnded && 0 <= now < TickRange
    ensures var r := Loop(g, button, now);
            !r.playing && !r.cycleEnded &&
            r.difficulty == Judge(g).difficulty && r.lives == Judge(g).lives &&
            (r.waiting <==> button == Released) &&
            (button == Released ==> r.releasedAt == now)
  {
  }

  /**
   Once a stop is judged, a step restarts the round exactly when the button
   reads released, a wait is running and more than 100 ticks (in 32-bit
   wrap-around arithmetic) have passed since it started; the cursor is then
   drawn at LED 0 and moved to LED 1 in the same step. A pressed reading
   cancels the wait.
   */
  lemma LoopRestarts(g: State, button: Button, now: int)
    requires Inv(g) && !g.playing && !g.cycleEnded && 0 <= now < TickRange
    ensures var r := Loop(g, button, now);
            r.playing <==> button == Released && g.waiting && Elapsed(now, g.releasedAt) > StableRelease
    ensures var r := Loop(g, button, now);
            r.playing ==> r.address == 1 && !r.waiting
    ensures var r := Loop(g, button, now);
            r.difficulty == g.difficulty && r.lives == g.lives && r.wheel == g.wheel
    ensures button == Pressed ==> !Loop(g, button, now).waiting && !Loop(g, button, now).playing
  {
  }

  /**
   The game boots running: the first loop step after setup draws the cursor
   at LED 0 and moves it to LED 1 without judging anything.
   */
  lemma BootRunsFreely(button: Button, now: int)
    requires 0 <= now < TickRange
    ensures var r := Loop(Setup(Boot()), button, now);
            r.playing && r.address == 1 && r.difficulty == Easy && r.lives == MaxLives
  {
  }

  /** A button press keeps the invariant. */
  lemma ButtonPressKeepsInv(g: State)
    requires Inv(g)
    ensures Inv(ButtonPress(g))
  {
  }

  /** What LED `p` of the strip shows for a pushed colour of full red, green or black at brightness 100. */
  lemma ShowsScaled(d: Display, p: int)
    requires Wf(d) && 0 <= p < NumLeds
    requires d.shown[p] == Green || d.shown[p] == Red || d.shown[p] == Black
    ensures Ws2812.DecodeLed(Frame(d), p) ==
            if d.shown[p] == Green then Ws2812.Channels(0, 100, 0)
            else if d.shown[p] == Red then Ws2812.Channels(100, 0, 0)
            else Ws2812.Channels(0, 0, 0)
  {
    RenderShows(d.shown, Blank(), p);
    assert ScaleChannel(255, GlobalBrightness) == 100;
  }

  /**
   While the cursor runs, the strip lights the cursor green and the target
   red at brightness 100 (the cursor wins when both coincide) and every
   other LED is dark.
   */
  lemma FreeRunShows(g: State, p: int)
    requires Inv(g) && 0 <= p < NumLeds
    ensures Ws2812.DecodeLed(Frame(FreeRun(g).display), p) ==
            if p == g.address then Ws2812.Channels(0, 100, 0)
            else if p == Center then Ws2812.Channels(100, 0, 0)
            else Ws2812.Channels(0, 0, 0)
  {
    assert FreeRun(g).display == CursorFrame(g);
    CursorFrameShows(g, p);
  }

  /**
   The frame a stop is judged on, and the one a running step draws: the
   cursor green and the target red at brightness 100, every other LED dark,
   and the cursor drawn over the target when they meet.
   */
  lemma CursorFrameShows(g: State, p: int)
    requires Shape(g) && 0 <= p < NumLeds
    ensures Ws2812.DecodeLed(Frame(CursorFrame(g)), p) ==
            if p == g.address then Ws2812.Channels(0, 100, 0)
            else if p == Center then Ws2812.Channels(100, 0, 0)
            else Ws2812.Channels(0, 0, 0)
  {
    ShowsScaled(CursorFrame(g), p);
  }

  /** A restart shows only the target, red at brightness 100, before the cursor is drawn. */
  lemma RestartShows(g: State, button: Button, now: int, p: int)
    requires Inv(g) && !g.playing && 0 <= now < TickRange && 0 <= p < NumLeds
    requires Debounce(g, button, now).playing
    ensures Ws2812.DecodeLed(Frame(Debounce(g, button, now).display), p) ==
            if p == Center then Ws2812.Channels(100, 0, 0) else Ws2812.Channels(0, 0, 0)
  {
    var d := Debounce(g, button, now).display;
    assert d.shown == SetLed(Fill(g.display.strip, Black), Center, Red);
    ShowsScaled(d, p);
  }

  /** A lost round ends with the strip dark: the last red flash leaves every LED off. */
  lemma JudgeLossGoesDark(g: State)
    requires Inv(g) && g.address != Center
    ensures Judge(g).display == Off()
  {
    var shown := CursorFrame(g);
    var judged := g.(cycleEnded := false, waiting := false);
    assert Judge(g).display == Lost(judged, shown).display;
  }

  /**
   A won round ends on the trail of the second Cylon sweep, every LED holding
   the faded wheel colour it was given on the way back, and the wheel four
   sweeps further on.
   */
  lemma JudgeWinLeavesTrail(g: State, j: int)
    requires Inv(g) && g.address == Center && 0 <= j < NumLeds
    ensures Judge(g).display.strip[j] == TrailColor(Advance(g.wheel, 2 * NumLeds), j)
    ensures Judge(g).wheel == Advance(g.wheel, 4 * NumLeds)
  {
    var shown := CursorFrame(g);
    var judged := g.(cycleEnded := false, waiting := false);
    var top := g.difficulty == MissionImpossible;
    var won := Won(judged, shown);
    assert Judge(g).display == won.display && Judge(g).wheel == won.wheel;
    WonChase(judged, shown, j);
  }

  /** The display and wheel a won round ends on are those of the winning chase. */
  lemma WonChase(g: State, shown: Display, j: int)
    requires Wf(shown) && 0 <= j < NumLeds
    ensures Won(g, shown).display.strip[j] == TrailColor(Advance(g.wheel, 2 * NumLeds), j)
    ensures Won(g, shown).wheel == Advance(g.wheel, 4 * NumLeds)
  {
    var chase := WinChase(shown, g.wheel, g.difficulty == MissionImpossible);
    assert Won(g, shown).display == chase.display && Won(g, shown).wheel == chase.wheel;
    WinChaseTrail(shown, g.wheel, g.difficulty == MissionImpossible, j);
  }

  /** The winning chase leaves the trail of its second sweep, whether or not the top-level animation ran first. */
  lemma WinChaseTrail(shown: Display, wheel: Byte, top: bool, j: int)
    requires Wf(shown) && 0 <= j < NumLeds
    ensures WinChase(shown, wheel, top).display.strip[j] == TrailColor(Advance(wheel, 2 * NumLeds), j)
  {
    var start := if top then WonAnimation(shown) else shown;
    CylonsSecondTrail(start, wheel, j);
  }

  lemma CylonsSecondTrail(d: Display, wheel: Byte, j: int)
    requires Wf(d) && 0 <= j < NumLeds
    ensures Cylons(d, wheel, 2).display.strip[j] == TrailColor(Advance(wheel, 2 * NumLeds), j)
  {
    CylonsTrail(d, wheel, 2);
    assert 2 * NumLeds * (2 - 1) == 2 * NumLeds;
  }

  /**
   While the wait runs and 100 ticks or fewer have passed since it started, a
   released reading changes nothing: the start of the wait is not moved.
   */
  lemma LoopKeepsWaiting(g: State, now: int)
    requires Inv(g) && !g.playing && !g.cycleEnded && g.waiting && 0 <= now < TickRange
    requires Elapsed(now, g.releasedAt) <= StableRelease
    ensures Loop(g, Released, now) == g
  {
  }

  /**
   The held release over two steps: a released reading at `t0` starts the
   wait, and a released reading at a later step `t1` restarts the round
   exactly when more than 100 ticks have passed since `t0`.
   */
  lemma LoopHeldRelease(g: State, t0: int, t1: int)
    requires Inv(g) && !g.playing && !g.cycleEnded && !g.waiting
    requires 0 <= t0 < TickRange && 0 <= t1 < TickRange
    ensures var s := Loop(g, Released, t0);
            !s.playing && s.waiting && s.releasedAt == t0 && s.address == g.address
    ensures var s := Loop(g, Released, t0);
            Loop(s, Released, t1).playing <==> Elapsed(t1, t0) > StableRelease
  {
    var s := Loop(g, Released, t0);
    assert s == g.(waiting := true, releasedAt := t0);
    assert Inv(s);
  }

  /**
   The cursor moves on before the step's delay, so while the strip shows the
   cursor on LED `a` the state already holds `a + 1`. A press while the
   cursor is shown on the target is judged one LED further on and takes a
   life.
   */
  lemma PressOnShownTargetLoses(g: State, button: Button, now: int)
    requires Inv(g) && g.playing && g.address == Center && 0 <= now < TickRange
    ensures Ws2812.DecodeLed(Frame(Loop(g, button, now).display), Center) == Ws2812.Channels(0, 100, 0)
    ensures var stopped := ButtonPress(Loop(g, button, now));
            stopped.address == Center + 1 &&
            Judge(stopped).lives == (if g.lives > 1 then g.lives - 1 else MaxLives)
  {
    var shown := Loop(g, button, now);
    assert shown == FreeRun(g);
    FreeRunShows(g, Center);
    LoopRuns(g, button, now);
    LoopKeepsInv(g, button, now);
    var stopped := ButtonPress(shown);
    ButtonPressKeepsInv(shown);
    JudgeLoses(stopped);
  }

  /** A win needs the press while the strip shows the cursor on the LED before the target. */
  lemma PressBeforeTargetWins(g: State, button: Button, now: int)
    requires Inv(g) && g.playing && g.address == Center - 1 && 0 <= now < TickRange
    ensures Ws2812.DecodeLed(Frame(Loop(g, button, now).display), Center - 1) == Ws2812.Channels(0, 100, 0)
    ensures var stopped := ButtonPress(Loop(g, button, now));
            stopped.address == Center &&
            Judge(stopped).difficulty == WinLevel(g.difficulty)
  {
    var shown := Loop(g, button, now);
    assert shown == FreeRun(g);
    FreeRunShows(g, Center - 1);
    LoopRuns(g, button, now);
    LoopKeepsInv(g, button, now);
    var stopped := ButtonPress(shown);
    ButtonPressKeepsInv(shown);
    JudgeWins(stopped);
  }
}

=== FILE: led_strip.dfy ===
/**
 The logical colour buffer of the game (`led_strip`, one RGB triple per LED)
 and the renderer that pushes it, scaled by the global brightness, into the
 WS2812 slot buffer.
 */
module LedStrip {
  import opened Colors
  import Ws2812

  const NumLeds: int := Ws2812.NumLeds

  /** The target LED the player has to stop the cursor on (`CENTER_LED`). */
  const Center: int := 29

  /** A colour buffer has one entry per LED. */
  predicate IsStrip(s: seq<RGB>)
  {
    |s| == NumLeds
  }

  /** The colour buffer as the static array starts: every LED black. */
  function Dark(): (s: seq<RGB>)
    ensures IsStrip(s)
    ensures forall j :: 0 <= j < NumLeds ==> s[j] == Black
  {
    seq(NumLeds, _ => Black)
  }

  /** `set_led_color_in_strip`: writes one LED; an index outside the strip is ignored. */
  function SetLed(s: seq<RGB>, index: int, c: RGB): (r: seq<RGB>)
    requires IsStrip(s)
    ensures IsStrip(r)
    ensures 0 <= index < NumLeds ==> r[index] == c
    ensures forall j :: 0 <= j < NumLeds && j != index ==> r[j] == s[j]
    ensures !(0 <= index < NumLeds) ==> r == s
  {
    if 0 <= index < NumLeds then s[index := c] else s
  }

  /** The loop of `fill_strip_solid` from LED `i` on. */
  function FillFrom(s: seq<RGB>, c: RGB, i: int): (r: seq<RGB>)
    requires IsStrip(s) && 0 <= i <= NumLeds
    ensures IsStrip(r)
    ensures forall j :: 0 <= j < i ==> r[j] == s[j]
    ensures forall j :: i <= j < NumLeds ==> r[j] == c
    decreases NumLeds - i
  {
    if i == NumLeds then s else FillFrom(SetLed(s, i, c), c, i + 1)
  }

  /** `fill_strip_solid`: every LED takes the same colour, whatever it held. */
  function Fill(s: seq<RGB>, c: RGB): (r: seq<RGB>)
    requires IsStrip(s)
    ensures IsStrip(r)
    ensures forall j :: 0 <= j < NumLeds ==> r[j] == c
  {
    FillFrom(s, c, 0)
  }

  /** The loop of `apply_fade_to_all_leds` from LED `i` on. */
  function FadeFrom(s: seq<RGB>, i: int): (r: seq<RGB>)
    requires IsStrip(s) && 0 <= i <= NumLeds
    ensures IsStrip(r)
    ensures forall j :: 0 <= j < i ==> r[j] == s[j]
    ensures forall j :: i <= j < NumLeds ==> r[j] == FadeColor(s[j])
    decreases NumLeds - i
  {
    if i == NumLeds then s else FadeFrom(s[i := FadeColor(s[i])], i + 1)
  }

  /** `apply_fade_to_all_leds`: every channel of every LED multiplied by 245/256. */
  function FadeAll(s: seq<RGB>): (r: seq<RGB>)
    requires IsStrip(s)
    ensures IsStrip(r)
    ensures forall j :: 0 <= j < NumLeds ==> r[j] == FadeColor(s[j])
  {
    FadeFrom(s, 0)
  }

  /** Slot `k` of the frame the renderer produces for `s`: LED `k / 24` scaled by the brightness. */
  function RenderedSlot(s: seq<RGB>, k: int): (v: int)
    requires IsStrip(s) && 0 <= k < Ws2812.DataLen
    ensures v == Ws2812.ZeroSlot || v == Ws2812.OneSlot
  {
    var c := ScaleColor(s[k / Ws2812.SlotsPerLed], GlobalBrightness);
    Ws2812.LedSlot(c.r, c.g, c.b, k % Ws2812.SlotsPerLed)
  }

  /** The loop of `update_led_strip_to_physical_leds` from LED `i` on. */
  function RenderFrom(s: seq<RGB>, frame: seq<int>, i: int): (r: seq<int>)
    requires IsStrip(s) && |frame| == Ws2812.BufferLen && 0 <= i <= NumLeds
    ensures |r| == Ws2812.BufferLen
    ensures forall k :: 0 <= k < Ws2812.SlotsPerLed * i ==> r[k] == frame[k]
    ensures forall k :: Ws2812.SlotsPerLed * i <= k < Ws2812.DataLen ==> r[k] == RenderedSlot(s, k)
    ensures forall k :: Ws2812.DataLen <= k < Ws2812.BufferLen ==> r[k] == frame[k]
    decreases NumLeds - i
  {
    if i == NumLeds then frame
    else
      var c := ScaleColor(s[i], GlobalBrightness);
      var next := Ws2812.EncodeLed(frame, i, c.r, c.g, c.b);
      var r := RenderFrom(s, next, i + 1);
      assert forall k :: Ws2812.SlotsPerLed * i <= k < Ws2812.SlotsPerLed * (i + 1) ==>
               k / Ws2812.SlotsPerLed == i && k % Ws2812.SlotsPerLed == k - Ws2812.SlotsPerLed * i;
      r
  }

  /**
   `update_led_strip_to_physical_leds`: every data slot of the WS2812 buffer is
   rewritten from the scaled colour buffer; the reset gap is left alone.
   */
  function Render(s: seq<RGB>, frame: seq<int>): (r: seq<int>)
    requires IsStrip(s) && |frame| == Ws2812.BufferLen
    ensures |r| == Ws2812.BufferLen
    ensures forall k :: 0 <= k < Ws2812.DataLen ==> r[k] == RenderedSlot(s, k)
    ensures forall k :: Ws2812.DataLen <= k < Ws2812.BufferLen ==> r[k] == frame[k]
  {
    RenderFrom(s, frame, 0)
  }

  /**
   What the strip shows after a render: LED `p` reads back its logical colour
   scaled by the brightness (`value * 100 / 255` per channel).
   */
  lemma RenderShows(s: seq<RGB>, frame: seq<int>, p: int)
    requires IsStrip(s) && |frame| == Ws2812.BufferLen && 0 <= p < NumLeds
    ensures var c := ScaleColor(s[p], GlobalBrightness);
            Ws2812.DecodeLed(Render(s, frame), p) == Ws2812.Channels(c.r, c.g, c.b)
  {
    var c := ScaleColor(s[p], GlobalBrightness);
    var r := Render(s, frame);
    RenderHolds(s, frame, p);
    Ws2812.DecodeHeld(r, p, c.r, c.g, c.b);
    ByteMod(c.r);
    ByteMod(c.g);
    ByteMod(c.b);
  }

  /** The 24 slots of LED `p` in a rendered frame are the encoding of its scaled colour. */
  lemma RenderHolds(s: seq<RGB>, frame: seq<int>, p: int)
    requires IsStrip(s) && |frame| == Ws2812.BufferLen && 0 <= p < NumLeds
    ensures var c := ScaleColor(s[p], GlobalBrightness);
            Ws2812.Holds(Render(s, frame), p, c.r, c.g, c.b)
  {
    var r := Render(s, frame);
    var c := ScaleColor(s[p], GlobalBrightness);
    forall m | 0 <= m < Ws2812.SlotsPerLed
      ensures r[Ws2812.SlotsPerLed * p + m] == Ws2812.LedSlot(c.r, c.g, c.b, m)
    {
      var k := Ws2812.SlotsPerLed * p + m;
      assert 0 <= k < Ws2812.DataLen;
      assert r[k] == RenderedSlot(s, k);
      SlotOfLed(s, p, m);
    }
  }

  lemma ByteMod(x: Byte)
    ensures x % 256 == x
  {
  }

  lemma SlotOfLed(s: seq<RGB>, p: int, m: int)
    requires IsStrip(s) && 0 <= p < NumLeds && 0 <= m < Ws2812.SlotsPerLed
    ensures var c := ScaleColor(s[p], GlobalBrightness);
            RenderedSlot(s, Ws2812.SlotsPerLed * p + m) == Ws2812.LedSlot(c.r, c.g, c.b, m)
  {
    var k := Ws2812.SlotsPerLed * p + m;
    assert k / Ws2812.SlotsPerLed == p && k % Ws2812.SlotsPerLed == m;
  }

  /** A frame is fully determined by the colour buffer and the previous reset gap. */
  lemma RenderDeterminedByStrip(s: seq<RGB>, f1: seq<int>, f2: seq<int>)
    requires IsStrip(s) && |f1| == Ws2812.BufferLen && |f2| == Ws2812.BufferLen
    requires forall k :: Ws2812.DataLen <= k < Ws2812.BufferLen ==> f1[k] == f2[k]
    ensures Render(s, f1) == Render(s, f2)
  {
    var r1 := Render(s, f1);
    var r2 := Render(s, f2);
    assert forall k :: 0 <= k < Ws2812.DataLen ==> r1[k] == r2[k];
    assert forall k :: Ws2812.DataLen <= k < Ws2812.BufferLen ==> r1[k] == r2[k];
  }

  /** Rendering over a rendered frame is rendering over the original one: only the last render counts. */
  lemma RenderLast(a: seq<RGB>, b: seq<RGB>, frame: seq<int>)
    requires IsStrip(a) && IsStrip(b) && |frame| == Ws2812.BufferLen
    ensures Render(b, Render(a, frame)) == Render(b, frame)
  {
    RenderDeterminedByStrip(b, Render(a, frame), frame);
  }

  /** A dark buffer renders to the frame `WS2812_ResetAllLED` leaves: every data slot a "0" bit. */
  lemma DarkRendersAsReset(s: seq<RGB>, frame: seq<int>)
    requires IsStrip(s) && |frame| == Ws2812.BufferLen
    requires forall j :: 0 <= j < NumLeds ==> s[j] == Black
    ensures forall k :: 0 <= k < Ws2812.DataLen ==> Render(s, frame)[k] == Ws2812.ZeroSlot
  {
    forall k | 0 <= k < Ws2812.DataLen ensures RenderedSlot(s, k) == Ws2812.ZeroSlot {
      assert s[k / Ws2812.SlotsPerLed] == Black;
      BlackSlot(k % Ws2812.SlotsPerLed);
    }
  }

  /** Every slot of a black LED is a "0" bit. */
  lemma BlackSlot(m: int)
    requires 0 <= m < Ws2812.SlotsPerLed
    ensures Ws2812.LedSlot(0, 0, 0, m) == Ws2812.ZeroSlot
  {
    var n := if m < 8 then 7 - m else if m < 16 then 15 - m else 23 - m;
    ZeroShift(n);
  }

  lemma {:induction false} ZeroShift(n: nat)
    ensures Ws2812.Shr(0, n) == 0
    decreases n
  {
    if n > 0 {
      ZeroShift(n - 1);
    }
  }
}

=== FILE: ws2812.dfy ===
/**
 The WS2812 bit encoder. Every LED takes 24 consecutive slots of the PWM
 buffer, green then red then blue, most significant bit first; a slot holds
 the bit plus one (1 is the duty cycle of a "0" bit, 2 of a "1" bit). After
 the 24 slots of the last LED come 50 slots that stay 0: the reset gap the
 timer sends after every frame.
 */
module Ws2812 {

  /** Number of LEDs on the ring (`noOfLEDs`). */
  const NumLeds: int := 59
  const SlotsPerLed: int := 24
  /** Slots that carry LED data. */
  const DataLen: int := SlotsPerLed * NumLeds
  /** The whole `pwmData` buffer: LED data followed by the reset gap. */
  const BufferLen: int := DataLen + 50

  /** Duty-cycle slot values of a "0" bit and a "1" bit. */
  const ZeroSlot: int := 1
  const OneSlot: int := 2

  function Pow2(n: nat): (p: nat)
    ensures p >= 1
  {
    if n == 0 then 1 else 2 * Pow2(n - 1)
  }

  /**
   `v >> n` on a C `int`: an arithmetic shift, i.e. `n` floor halvings (Dafny's
   `/` by a positive divisor is floor division, also for negative `v`).
   */
  function Shr(v: int, n: nat): (s: int)
    ensures s == v / Pow2(n)
    decreases n
  {
    if n == 0 then v
    else
      HalvingMod(v, Pow2(n - 1));
      Shr(v / 2, n - 1)
  }

  /** `(v >> n) & 1`. */
  function Bit(v: int, n: nat): (b: int)
    ensures b == 0 || b == 1
    ensures b == (v / Pow2(n)) % 2
  {
    Shr(v, n) % 2
  }

  /** The slot value `pwmData` receives for bit `n` of `v`. */
  function BitSlot(v: int, n: nat): (s: int)
    ensures s == ZeroSlot || s == OneSlot
    ensures s == ZeroSlot <==> Bit(v, n) == 0
  {
    Bit(v, n) + 1
  }

  /** Slot `k` (0..23) of one LED: green bits 7..0, red bits 7..0, blue bits 7..0. */
  function LedSlot(red: int, green: int, blue: int, k: int): (s: int)
    requires 0 <= k < SlotsPerLed
    ensures s == ZeroSlot || s == OneSlot
  {
    if k < 8 then BitSlot(green, 7 - k)
    else if k < 16 then BitSlot(red, 15 - k)
    else BitSlot(blue, 23 - k)
  }

  /** The buffer after `WS2812_SetLED(position, red, green, blue)`. */
  function EncodeLed(pwm: seq<int>, position: int, red: int, green: int, blue: int): (out: seq<int>)
    requires 0 <= position && SlotsPerLed * position + SlotsPerLed <= |pwm|
    ensures |out| == |pwm|
    ensures forall k :: 0 <= k < |pwm| && !(SlotsPerLed * position <= k < SlotsPerLed * position + SlotsPerLed) ==> out[k] == pwm[k]
    ensures forall m :: 0 <= m < SlotsPerLed ==> out[SlotsPerLed * position + m] == LedSlot(red, green, blue, m)
  {
    var base := SlotsPerLed * position;
    seq(|pwm|, k requires 0 <= k < |pwm| => if base <= k < base + SlotsPerLed then LedSlot(red, green, blue, k - base) else pwm[k])
  }

  /**
   `WS2812_SetLED`, loop by loop: three loops over `i` = 7 down to 0 write
   `((channel >> i) & 1) + 1` to slot `24 * position + 7 - i` (green), `+ 15 - i`
   (red) and `+ 23 - i` (blue). The position is not checked by the source; the
   requires is the bound that keeps the 24 writes inside `pwmData`.
   */
  method SetLed(pwm: seq<int>, position: int, red: int, green: int, blue: int) returns (out: seq<int>)
    requires |pwm| == BufferLen
    requires 0 <= position && SlotsPerLed * position + SlotsPerLed <= BufferLen
    ensures |out| == |pwm|
    ensures forall k :: 0 <= k < |pwm| && !(SlotsPerLed * position <= k < SlotsPerLed * position + SlotsPerLed) ==> out[k] == pwm[k]
    ensures forall k :: SlotsPerLed * position <= k < SlotsPerLed * position + 8 ==>
              out[k] == Bit(green, SlotsPerLed * position + 7 - k) + 1
    ensures forall k :: SlotsPerLed * position + 8 <= k < SlotsPerLed * position + 16 ==>
              out[k] == Bit(red, SlotsPerLed * position + 15 - k) + 1
    ensures forall k :: SlotsPerLed * position + 16 <= k < SlotsPerLed * position + 24 ==>
              out[k] == Bit(blue, SlotsPerLed * position + 23 - k) + 1
    ensures forall k :: SlotsPerLed * position <= k < SlotsPerLed * position + SlotsPerLed ==> out[k] == ZeroSlot || out[k] == OneSlot
    ensures out == EncodeLed(pwm, position, red, green, blue)
  {
    var base := SlotsPerLed * position;
    out := pwm;
    var i := 7;
    while i >= 0
      invariant -1 <= i <= 7
      invariant |out| == |pwm|
      invariant forall k :: 0 <= k < |pwm| && !(base <= k < base + 7 - i) ==> out[k] == pwm[k]
      invariant forall k :: base <= k < base + 7 - i ==> out[k] == LedSlot(red, green, blue, k - base)
    {
      out := out[base + 7 - i := (Shr(green, i) % 2) + 1];
      i := i - 1;
    }
    i := 7;
    while i >= 0
      invariant -1 <= i <= 7
      invariant |out| == |pwm|
      invariant forall k :: 0 <= k < |pwm| && !(base <= k < base + 15 - i) ==> out[k] == pwm[k]
      invariant forall k :: base <= k < base + 15 - i ==> out[k] == LedSlot(red, green, blue, k - base)
    {
      out := out[base + 15 - i := (Shr(red, i) % 2) + 1];
      i := i - 1;
    }
    i := 7;
    while i >= 0
      invariant -1 <= i <= 7
      invariant |out| == |pwm|
      invariant forall k :: 0 <= k < |pwm| && !(base <= k < base + 23 - i) ==> out[k] == pwm[k]
      invariant forall k :: base <= k < base + 23 - i ==> out[k] == LedSlot(red, green, blue, k - base)
    {
      out := out[base + 23 - i := (Shr(blue, i) % 2) + 1];
      i := i - 1;
    }
  }

  /** `WS2812_ResetAllLED`: every data slot becomes a "0" bit. */
  method ResetAll(pwm: seq<int>) returns (out: seq<int>)
    requires |pwm| == BufferLen
    ensures |out| == BufferLen
    ensures forall k :: 0 <= k < DataLen ==> out[k] == ZeroSlot
    ensures forall k :: DataLen <= k < BufferLen ==> out[k] == pwm[k]
  {
    out := pwm;
    var i := 0;
    while i < DataLen
      invariant 0 <= i <= DataLen
      invariant |out| == BufferLen
      invariant forall k :: 0 <= k < i ==> out[k] == ZeroSlot
      invariant forall k :: i <= k < BufferLen ==> out[k] == pwm[k]
    {
      out := out[i := ZeroSlot];
      i := i + 1;
    }
  }

  /** `WS2812_SetAllLED`: every data slot becomes a "1" bit (full white). */
  method SetAll(pwm: seq<int>) returns (out: seq<int>)
    requires |pwm| == BufferLen
    ensures |out| == BufferLen
    ensures forall k :: 0 <= k < DataLen ==> out[k] == OneSlot
    ensures forall k :: DataLen <= k < BufferLen ==> out[k] == pwm[k]
  {
    out := pwm;
    var i := 0;
    while i < DataLen
      invariant 0 <= i <= DataLen
      invariant |out| == BufferLen
      invariant forall k :: 0 <= k < i ==> out[k] == OneSlot
      invariant forall k :: i <= k < BufferLen ==> out[k] == pwm[k]
    {
      out := out[i := OneSlot];
      i := i + 1;
    }
  }

  // ---------------------------------------------------------------------
  // Decoding: what a WS2812 reads back from the slots of one LED.
  // ---------------------------------------------------------------------

  /** The channel values one LED receives. */
  datatype Channels = Channels(red: int, green: int, blue: int)

  /** A run of slots read most significant bit first: the sum of `(slot - 1) * 2^(n-1-k)`. */
  function DecodeBits(s: seq<int>): int
  {
    if |s| == 0 then 0 else 2 * DecodeBits(s[..|s| - 1]) + (s[|s| - 1] - 1)
  }

  /** The channels encoded in the 24 slots of LED `position`. */
  function DecodeLed(pwm: seq<int>, position: int): Channels
    requires 0 <= position && SlotsPerLed * position + SlotsPerLed <= |pwm|
  {
    var base := SlotsPerLed * position;
    Channels(DecodeBits(pwm[base + 8..base + 16]), DecodeBits(pwm[base..base + 8]), DecodeBits(pwm[base + 16..base + 24]))
  }

  /** The slots `WS2812_SetLED` writes for the low `n` bits of `v`, most significant first. */
  function BitRun(v: int, n: nat): (s: seq<int>)
    ensures |s| == n
  {
    seq(n, k requires 0 <= k < n => BitSlot(v, n - 1 - k))
  }

  /** Reading back the slots of the low `n` bits of `v` gives `v` modulo `2^n`. */
  lemma {:induction false} BitRunRoundTrip(v: int, n: nat)
    ensures DecodeBits(BitRun(v, n)) == v % Pow2(n)
    decreases n
  {
    if n > 0 {
      var s := BitRun(v, n);
      assert s[..n - 1] == BitRun(v / 2, n - 1) by {
        forall k | 0 <= k < n - 1
          ensures s[k] == BitRun(v / 2, n - 1)[k]
        {
          assert s[k] == BitSlot(v, n - 1 - k);
          assert BitRun(v / 2, n - 1)[k] == BitSlot(v / 2, n - 2 - k);
          assert Shr(v, n - 1 - k) == Shr(v / 2, n - 2 - k);
        }
      }
      assert s[n - 1] == BitSlot(v, 0);
      assert Shr(v, 0) == v;
      BitRunRoundTrip(v / 2, n - 1);
      HalvingMod(v, Pow2(n - 1));
    }
  }

  /**
   Halving and then dividing by `m` is dividing by `2m`, and `v mod 2m` is
   `2 * ((v / 2) mod m) + v mod 2`.
   */
  lemma HalvingMod(v: int, m: int)
    requires m >= 1
    ensures (v / 2) / m == v / (2 * m)
    ensures 2 * ((v / 2) % m) + v % 2 == v % (2 * m)
  {
    var q := v / 2;
    var a := q / m;
    var r := q % m;
    assert v == 2 * m * a + (2 * r + v % 2);
    ModUnique(v, 2 * m, a, 2 * r + v % 2);
  }

  lemma ModUnique(v: int, d: int, a: int, r: int)
    requires d >= 1 && 0 <= r < d && v == d * a + r
    ensures v / d == a && v % d == r
  {
    var a' := v / d;
    var r' := v % d;
    assert d * a + r == d * a' + r';
    if a < a' {
      assert d * (a' - a) >= d by { MulAtLeast(d, a' - a); }
      assert false;
    } else if a > a' {
      assert d * (a - a') >= d by { MulAtLeast(d, a - a'); }
      assert false;
    }
  }

  lemma MulAtLeast(d: int, x: int)
    requires d >= 1 && x >= 1
    ensures d * x >= d
  {
  }

  /** The slots of LED `position` hold exactly what `WS2812_SetLED` writes for these channels. */
  ghost predicate Holds(pwm: seq<int>, position: int, red: int, green: int, blue: int)
    requires 0 <= position && SlotsPerLed * position + SlotsPerLed <= |pwm|
  {
    forall m :: 0 <= m < SlotsPerLed ==> pwm[SlotsPerLed * position + m] == LedSlot(red, green, blue, m)
  }

  /**
   Decoding inverts encoding: an LED whose slots hold the encoding of
   (red, green, blue) reads back the low 8 bits of each channel.
   */
  lemma DecodeHeld(pwm: seq<int>, position: int, red: int, green: int, blue: int)
    requires 0 <= position && SlotsPerLed * position + SlotsPerLed <= |pwm|
    requires Holds(pwm, position, red, green, blue)
    ensures DecodeLed(pwm, position) == Channels(red % 256, green % 256, blue % 256)
  {
    var base := SlotsPerLed * position;
    assert pwm[base..base + 8] == BitRun(green, 8) by {
      forall k | 0 <= k < 8 ensures pwm[base..base + 8][k] == BitRun(green, 8)[k] {
        assert pwm[base + k] == LedSlot(red, green, blue, k);
      }
    }
    assert pwm[base + 8..base + 16] == BitRun(red, 8) by {
      forall k | 0 <= k < 8 ensures pwm[base + 8..base + 16][k] == BitRun(red, 8)[k] {
        assert pwm[base + 8 + k] == LedSlot(red, green, blue, 8 + k);
      }
    }
    assert pwm[base + 16..base + 24] == BitRun(blue, 8) by {
      forall k | 0 <= k < 8 ensures pwm[base + 16..base + 24][k] == BitRun(blue, 8)[k] {
        assert pwm[base + 16 + k] == LedSlot(red, green, blue, 16 + k);
      }
    }
    assert Pow2(8) == 256;
    BitRunRoundTrip(green, 8);
    BitRunRoundTrip(red, 8);
    BitRunRoundTrip(blue, 8);
  }

  /**
   Round trip of `WS2812_SetLED`: the LED it wrote decodes to its channels
   (exactly, for 0..255; only the low 8 bits of a wider value survive).
   */
  lemma EncodeDecode(pwm: seq<int>, position: int, red: int, green: int, blue: int)
    requires 0 <= position && SlotsPerLed * position + SlotsPerLed <= |pwm|
    ensures DecodeLed(EncodeLed(pwm, position, red, green, blue), position) == Channels(red % 256, green % 256, blue % 256)
    ensures 0 <= red < 256 && 0 <= green < 256 && 0 <= blue < 256 ==>
              DecodeLed(EncodeLed(pwm, position, red, green, blue), position) == Channels(red, green, blue)
  {
    DecodeHeld(EncodeLed(pwm, position, red, green, blue), position, red, green, blue);
  }

  /** A run of equal slots `c` decodes to `(c - 1) * (2^n - 1)`: all-zero or all-one bits. */
  lemma {:induction false} DecodeUniform(s: seq<int>, c: int)
    requires forall k :: 0 <= k < |s| ==> s[k] == c
    ensures DecodeBits(s) == (c - 1) * (Pow2(|s|) - 1)
  {
    if |s| > 0 {
      DecodeUniform(s[..|s| - 1], c);
    }
  }

  /** After `WS2812_ResetAllLED` every LED reads black; after `WS2812_SetAllLED` every LED reads white. */
  lemma UniformFrameDecodes(pwm: seq<int>, c: int, position: int)
    requires |pwm| == BufferLen && (c == ZeroSlot || c == OneSlot)
    requires forall k :: 0 <= k < DataLen ==> pwm[k] == c
    requires 0 <= position < NumLeds
    ensures c == ZeroSlot ==> DecodeLed(pwm, position) == Channels(0, 0, 0)
    ensures c == OneSlot ==> DecodeLed(pwm, position) == Channels(255, 255, 255)
  {
    var base := SlotsPerLed * position;
    assert Pow2(8) == 256;
    DecodeUniform(pwm[base..base + 8], c);
    DecodeUniform(pwm[base + 8..base + 16], c);
    DecodeUniform(pwm[base + 16..base + 24], c);
  }
}
